=== FILE: README.md ===
# interactive-configurator: the validation and writing core in Dafny

The configurator walks an operator through a scenario. A scenario is a list
of steps. Each step names a configuration file, a key and a declared value
type. The operator's answer is checked against the type, then written under
the key into the file. The file's format is chosen from its extension:

- plain `key=value` text
- INI, treated as the same line format
- JSON, where a dotted key addresses nested objects

This project models that core as pure Dafny functions over immutable data
and proves what the code promises about it. The modules follow the Go
packages:

| module | models |
|---|---|
| `ValueTypes` | the open string type `ValueType` and its eight constants |
| `Scenarios` | `Step`, `Scenario`, `Scenario.Validate`, `ValueType.IsValid`, `ValueType.ValidateValue` |
| `Validators` | `GetValidator` and the six validators |
| `Writer` | `SaveValue`, `WritePlain`, `WriteINI`, `WriteJSON` over a file system held as a map from path to content |
| `LinePatch` | the replace-or-append loop shared by the plain and INI writers |
| `LineIO` | reading with `bufio.Scanner` (line-feed split, one carriage return dropped) and writing with `fmt.Fprintln` |
| `JsonTree` | decoded JSON values and the dotted-key update of `WriteJSON` |
| `Strconv`, `Text`, `Paths` | the standard-library functions whose exact behaviour decides outcomes: `strconv.Atoi`, `strings.ToLower`/`HasPrefix`/`Split`, `filepath.Ext` |
| `Platform` | `net.ParseIP` and `filepath.Abs`, as function parameters |
| `Wrappers` | `Option`, `Result`, `Outcome` |

Each error the model reports is a constructor of a failure datatype, and
carries the inputs its message shows. Error message texts and the library
errors the code wraps (the operating system's error from opening a file,
the JSON parser's error, the error of `filepath.Abs`) are not modelled.
Read and write failures of an open file have no constructor at all; they
are listed under "## Left out".

Three facts about the code decide outcomes that are easy to get wrong:

- The IP type is the string `"ip"`. A scenario that spells it
  `"ip-address"` is rejected by `Scenario.Validate` as an unsupported type,
  while `GetValidator` falls back to its accept-everything validator for
  that name. `ValueTypes.TagSpellings` and `Validators.FamiliesDiverge`
  state this.
- `WriteJSON` panics instead of returning an error in two cases:
  - the file holds `null`, which decodes to a nil map, and the code then assigns into it;
  - an intermediate member of a dotted key exists but is not an object,
    which fails a type assertion.

  The model turns both panics into explicit failures: `NilMapAssignment`
  and `IntermediateNotObject`. Other writes are unaffected.
- For the plain and INI writers, writing the same key and value twice
  changes a file again when one of its lines ends in two carriage returns
  and does not assign the key. The scanner drops one carriage return on
  each read, so such a line loses one on the first write and the other on
  the second (`Writer.CarriageReturnsBreakIdempotence`); a line that assigns
  the key is replaced on the first write instead. Without such lines, and
  when the key and value hold no line feed, writing twice gives the same
  file as writing once (`Writer.SaveTextIdempotent`), even for a value that
  ends in a carriage return.

## Model

| member | source | states |
|---|---|---|
| ValueTypes.FromName | internal/scenario/types.go:3-14 | every string is a value type; it is one of the eight constants exactly when it equals that constant's name, and its name is the string itself |
| ValueTypes.FromNameOfName | internal/scenario/types.go:3-14 | reading a value type's name back gives the same value type, so value types and strings correspond one to one |
| ValueTypes.ConstantNamesDistinct | internal/scenario/types.go:6-13 | the eight constants have pairwise different names, all among the known names |
| ValueTypes.TagSpellings | internal/scenario/types.go:9 | the IP type is spelled "ip"; "ip-address", "INT" and "Port" are not known types, because names are compared exactly |
| Scenarios.IsValid | internal/scenario/model.go:56-62 | a type is valid exactly when its name is one of the eight known names |
| Scenarios.CheckStep | internal/scenario/model.go:33-50 | a step passes exactly when it is well formed; otherwise it fails on the first broken rule in the code's order: missing file, missing key, unsupported type, enum without values, bad path; each fault is reported exactly when every earlier rule holds and its own rule fails |
| Scenarios.Validate | internal/scenario/model.go:28-53 | an empty scenario is rejected; a scenario passes exactly when it has steps and all are well formed; a rejection names, counting from 1, a step whose first fault it reports, and all steps before it are well formed |
| Scenarios.Contains | internal/scenario/model.go:92-96 | the enum loop finds the input exactly when it is a member of the allowed values |
| Scenarios.ValidateValue | internal/scenario/model.go:65-102 | string and any accept everything; int accepts exactly what Atoi parses within int64; bool accepts exactly the inputs that lower-case to "true" or "false"; port accepts exactly Atoi values 1..65535; ip and path defer to the library; enum accepts exact members; any other type is rejected as unknown; each rejection carries the input or the allowed list |
| Scenarios.IntRange | internal/scenario/model.go:69-72 | the decimal form of an integer is accepted as an int exactly when the integer is within int64 |
| Scenarios.PortRange | internal/scenario/model.go:82-86 | the decimal form of an integer is accepted as a port exactly when the integer is from 1 to 65535, so 0, 65536 and negatives are rejected |
| Scenarios.PortSyntax | internal/scenario/model.go:83 | "+80" and "0080" are valid ports; "" and " 80" are rejected |
| Scenarios.BoolExamples | internal/scenario/model.go:73-77 | "TRUE" and "False" are accepted; "1", "yes", "" and "true " are rejected |
| Scenarios.EnumExamples | internal/scenario/model.go:91-97 | enum membership is case-sensitive; an empty allowed list rejects every input, with the allowed list in the error |
| Validators.GetValidator | internal/validate/basic.go:14-32 | the lower-cased type name selects the int, bool, ip, port or path validator exactly when it equals that name; every other name, "string", "any" and "enum" included, selects the validator that accepts everything |
| Validators.Check | internal/validate/basic.go:38-92 | each validator accepts exactly what its rule allows: everything, an Atoi integer, any letter case of true/false, a parseable IP, an Atoi value in 1..65535, or a path the library accepts |
| Validators.GetValidatorIgnoresCase | internal/validate/basic.go:15 | letter case in the type name never changes the validator chosen |
| Validators.GetValidatorExamples | internal/validate/basic.go:15-31 | "PORT", "Int" and "BOOL" select their validators; "enum" and "ip-address" select the accept-all validator |
| Validators.AgreesWithValidateValue | internal/validate/basic.go:14-92 | for the seven types other than enum, the validator chosen by a type's name accepts exactly what ValidateValue accepts for that type |
| Validators.UncheckedNamesAcceptEverything | internal/validate/basic.go:26-30 | a name that is not one of the five checked names yields a validator that accepts every input |
| Validators.FamiliesDiverge | internal/validate/basic.go:28-30 | on "enum" the validator accepts an answer that ValidateValue rejects as outside the non-empty allowed list; on "ip-address" the validator accepts while ValidateValue reports an unknown type |
| Strconv.Atoi | internal/scenario/model.go:70 | Atoi returns a value exactly for an optional sign, one or more ASCII digits and a value within int64, and that value is the number the text denotes |
| Strconv.AtoiItoa | internal/scenario/model.go:83 | Atoi reads back the decimal form of every int64 and rejects the decimal form of every integer outside the range |
| Strconv.AtoiExamples | internal/validate/basic.go:77 | "+80" and "0080" read as 80 and "-5" as -5; "", "+", "-", " 80" and "1_000" are rejected |
| Text.Lower | internal/validate/basic.go:15 | lower-casing keeps the length and leaves no ASCII capital; a character becomes an ASCII lower-case letter exactly when it is an ASCII letter, U+0130 (to "i") or U+212A (to "k"); every other character is kept |
| Text.LowerIdempotent | internal/validate/basic.go:15 | lower-casing twice is lower-casing once |
| Text.FoldsToLower | internal/scenario/model.go:74-75 | a string folds to a word character by character exactly when its lower-cased form equals the word |
| Text.Split | internal/writer/json.go:26 | splitting on '.' gives one more piece than there are dots, no piece holds a dot, and joining the pieces gives the key back |
| Text.SplitJoin | internal/writer/json.go:26 | splitting the join of dot-free pieces gives the pieces back |
| Paths.Ext | internal/writer/writer.go:15 | the extension is a suffix of the path; when not empty it starts with its only '.' and holds no '/'; it is empty exactly when no dot lies in the final path element |
| LineIO.ScanLines | internal/writer/plain.go:19-29 | no scanned line contains a line feed; empty content is exactly the content with no lines; content without a line feed is the one line it holds, one trailing carriage return dropped |
| LineIO.ScanLinesSplit | internal/writer/plain.go:19-29 | the scanned lines are exactly the pieces of the content between line feeds, the empty piece after a final line feed left out, each with one trailing carriage return dropped |
| LineIO.ScanUnterminated | internal/writer/plain.go:19-29 | stable lines followed by a last line without a line feed read back as those lines and the last one, one carriage return dropped from it |
| LineIO.ScanUnlines | internal/writer/plain.go:45-49 | lines without line feeds and without a trailing carriage return, written one per line, read back as the same lines |
| LineIO.ReadDropsOneCarriageReturn | internal/writer/plain.go:22-23 | a line ending in two carriage returns reads back with one of them |
| LineIO.ReadDropsTheOther | internal/writer/plain.go:22-23 | written back with its remaining carriage return, that line reads as the bare line |
| LinePatch.ScanReplace | internal/writer/plain.go:22-29 | the scan keeps every line in place, replaces exactly the lines starting with key= by key=value, and reports whether any line matched |
| LinePatch.PatchLines | internal/writer/plain.go:22-37 | if a line matched, every line keeps its position; otherwise key=value is appended after all lines; every other line is unchanged |
| LinePatch.PatchAssigns | internal/writer/plain.go:22-37 | after a patch the key is assigned, and only by key=value lines |
| LinePatch.PatchIdempotent | internal/writer/plain.go:22-37 | patching the same key and value twice gives the lines of patching once |
| LinePatch.PatchAppendsWhenAbsent | internal/writer/plain.go:35-37 | with no line assigning the key, the result is the lines followed by key=value |
| LinePatch.PatchFixedPoint | internal/writer/plain.go:22-37 | lines that assign the key, and only as key=value, are left exactly as they are |
| LinePatch.PatchKeepsOtherLines | internal/writer/plain.go:22-37 | the lines not assigning the key come out exactly as they went in, in the same order |
| LinePatch.PatchEmpty | internal/writer/plain.go:35-37 | an empty file gets exactly the one key=value line |
| LinePatch.SectionsAreOrdinaryLines | internal/writer/ini.go:23-30 | section headers do not scope keys: the key's line is replaced in every section it appears in |
| LinePatch.KeyPrefixNeedsEquals | internal/writer/plain.go:24 | "host" does not match a "hostname=" line but matches "host=" |
| LinePatch.DistinctKeysDoNotMatch | internal/writer/plain.go:24 | two different keys without '=' never match each other's key=value lines |
| JsonTree.SetPath | internal/writer/json.go:26-38 | on success the value is found as a string at the dotted path, the top level gains at most the first segment, and every other top-level member is unchanged; only a path of two or more segments can fail, and the conflict names one of its intermediate segments |
| JsonTree.SetPathSucceedsIff | internal/writer/json.go:33-36 | the update succeeds exactly when every proper prefix of the path reaches an object or nothing |
| JsonTree.SetPathFrame | internal/writer/json.go:26-38 | every path that leaves the updated path reaches, at every depth, what it reached before |
| JsonTree.SetPathIdempotent | internal/writer/json.go:26-38 | setting the same dotted key to the same value again changes nothing |
| JsonTree.CreatesIntermediate | internal/writer/json.go:33-35 | "net.ip" on an empty object creates the "net" object holding "ip" |
| JsonTree.AddsBesideExisting | internal/writer/json.go:29-38 | "server.host" beside a numeric "server.port" keeps the number and adds a string |
| JsonTree.OverwriteAndConflict | internal/writer/json.go:30-36 | the last segment replaces even an object; a string or null in place of an intermediate object is a conflict |
| Writer.BackendFor | internal/writer/writer.go:15-23 | the INI backend is chosen exactly when the extension lower-cases to ".ini", JSON exactly when it lower-cases to ".json", plain text otherwise |
| Writer.DispatchIgnoresCase | internal/writer/writer.go:15-20 | any letter-case spelling of ".ini" or ".json" at the end of any path selects that backend |
| Writer.DispatchUsesFinalElement | internal/writer/writer.go:15 | only the path's last extension decides the backend, whatever precedes it |
| Writer.DispatchDefaultsToPlain | internal/writer/writer.go:21-22 | a final path element without a dot goes to the plain backend, whatever dots the directories carry |
| Writer.WritePlain | internal/writer/plain.go:11-52 | the write succeeds exactly when the file exists, and a missing file is an open error; only that file changes, and no file appears or disappears; its new content is its scanned lines, patched, each followed by a line feed |
| Writer.WriteIni | internal/writer/ini.go:11-54 | the same contract as WritePlain |
| Writer.DecodeObject | internal/writer/json.go:19-23 | decoding succeeds exactly for an object or null; null gives the nil map and anything else is a decode error |
| Writer.WriteJson | internal/writer/json.go:11-54 | a missing file is an open error; content that does not decode, or decodes to neither an object nor null, is a decode error; null is a nil-map failure; for an object the write succeeds exactly when the dotted path is clear, and a path that is not clear fails naming one of its segments; on success only that file changes, to the encoding of the updated object |
| Writer.SaveValue | internal/writer/writer.go:11-24 | a missing file is an open error for every backend and no file is created; only the named file changes; the plain and INI backends write the patched lines |
| Writer.SaveValueJson | internal/writer/writer.go:15-20 | a path whose extension lower-cases to ".json" is saved exactly as WriteJson saves it |
| Writer.PatchedContentOfLines | internal/writer/plain.go:20-49 | content made of stable lines patches to the written form of those lines, patched |
| Writer.PatchedContentUnterminated | internal/writer/plain.go:19-49 | a file whose last line has no line feed is patched as if that line, one carriage return dropped, were terminated, and is written back with a line feed after every line |
| Writer.WriteReplacesInPlace | internal/writer/plain.go:22-29 | "a=1","b=2" with b set to a new value keeps a and replaces b in place |
| Writer.WriteAppendsMissing | internal/writer/plain.go:35-37 | "a=1","b=2" with a new key c appends c's line after both |
| Writer.PatchedContentIdempotent | internal/writer/plain.go:20-49 | for content whose lines read back as themselves and a key and value without a line feed, patching twice gives what patching once gives; a value ending in a carriage return is included |
| Writer.EntryReadBackMatches | internal/writer/plain.go:22-25 | the written key=value line, read back with a trailing carriage return dropped, still starts with key= |
| Writer.RepatchReadBack | internal/writer/plain.go:19-37 | patching the read-back form of patched stable lines gives those patched lines again |
| LineIO.ScanUnlinesDrop | internal/writer/plain.go:19-29 | lines without line feeds, written one per line and read back, come back each with one trailing carriage return dropped |
| Writer.SaveTextIdempotent | internal/writer/writer.go:16-22 | for the plain and INI backends, saving the same key and value twice leaves the file as saving once, when the file's lines read back as themselves and the key and value hold no line feed |
| Writer.FirstPatchKeepsOneReturn | internal/writer/plain.go:20-37 | the first patch of a line that ends in two carriage returns and does not assign the key reads it with one of them and appends the entry |
| Writer.SecondPatchDropsIt | internal/writer/plain.go:20-37 | the second patch reads that line without its last carriage return and finds the entry in place |
| Writer.ReturnKeptDiffers | internal/writer/plain.go:45-49 | content whose first line keeps a carriage return differs from the content without it, so the first and second patch results are different files |
| Writer.CarriageReturnsBreakIdempotence | internal/writer/writer.go:16-22 | for a file whose line ends in two carriage returns and does not assign the key, the second save of the same key and value changes the file again |
| Writer.SaveJsonIdempotent | internal/writer/json.go:26-51 | for the JSON backend, given a codec that reads back what it writes, saving twice leaves the file as saving once |

## Left out

- File I/O is a map from path to content. A path absent from the map is a file that cannot be opened. Permissions and the operating system are not modelled.
- Failures of `os.Create` and of the write calls are left out. The model's writes always succeed once the file has been read.
- The scanner's 64 KiB line limit and its read errors are left out. Every file reads completely.
- The JSON text format is left out; it is the `Codec` parameter. Decoding yields a JSON value or fails, and encoding yields text. Three consequences:
  - The two-space indentation is not modelled.
  - Whatever the decoder ignores after the first value is not modelled.
  - Numbers are kept as their literal text and not converted to float64.
- `Writer.SaveJsonIdempotent`: it requires a codec that reads back what it writes, because the encoder and decoder themselves are not modelled.
- `net.ParseIP` and `filepath.Abs` are parameters (`Platform.Oracles`). The result of `filepath.Abs` depends on the working directory, which is outside the model.
- `filepath.Ext` is modelled with the Unix separator `/` only.
- The `runtime.GOOS` read in `SaveValue` has no effect and is left out.
- `Text.LowerChar` follows Go's lower-casing only for results that are ASCII. Other characters are kept as they are, and they never compare equal to the ASCII words the code compares with.
- `Writer.SaveTextIdempotent`: it requires the file's lines to read back as themselves, because the as-written behaviour is not idempotent for a line that ends in two carriage returns and does not assign the key (see `Writer.CarriageReturnsBreakIdempotence`). It also requires a key and value without a line feed, because such an entry is read back as two lines. The requirement on the file is stronger than needed: a line ending in two carriage returns that assigns the key is replaced on the first write, and that case is not covered.
- `Writer.PatchedContentIdempotent`: it has the same two requirements as `Writer.SaveTextIdempotent`, for the same reasons.
- Keys, values, type names, paths and file contents are Dafny strings, that is sequences of Unicode characters, whereas Go's strings are byte strings. Byte strings that are not valid UTF-8 are not represented; the code passes them through the scanner, `strings.HasPrefix` and `fmt.Fprintln` byte for byte, and `strings.ToLower` turns each invalid byte into U+FFFD. Lengths are counted in characters, not bytes: `Text.Lower` keeps the length in characters, while Go's `ToLower` shortens "İ" from two bytes to one. Every delimiter the code tests (`\n`, `\r`, `.`, `/`, `=`, the ASCII digits and signs) is ASCII and never occurs inside a multi-byte UTF-8 sequence, so on valid UTF-8 the model and the byte-level code cut and compare at the same places.
- `Writer.WriteJson` and `Writer.SaveValue` return failures where the program panics. The failures are on a null document and on a non-object intermediate member.
- Error message texts are left out.
- The orchestrating loop (`cmd/configurator/main.go`), prompting (`internal/input/prompt.go`) and loading the scenario file (`internal/scenario/loader.go`) are not part of this model.

=== FILE: jsontree.dfy ===
/** Decoded JSON documents (RFC 8259 values) and the dotted-key update the
    JSON backend performs on them.

    Numbers are kept as their literal text and never interpreted. An update
    walks the key's segments from the top-level object: a missing
    intermediate member is created as an empty object, an existing object is
    descended into, and the last segment is set to the value as a JSON
    string, replacing whatever was there. An intermediate member that exists
    but is not an object (null included) stops the update; the program
    panics at that point, here it is the `NotAnObject` failure. */
module JsonTree {
  import opened Wrappers

  datatype Json =
    | JNull
    | JBool(b: bool)
    | JNumber(literal: string)
    | JString(s: string)
    | JArray(items: seq<Json>)
    | JObject(members: map<string, Json>)

  /** The value reached by following `path` through nested objects, if every
      step is an object holding that member. */
  function Lookup(j: Json, path: seq<string>): Option<Json>
    decreases |path|
  {
    if |path| == 0 then Some(j)
    else match j
      case JObject(m) => if path[0] in m then Lookup(m[path[0]], path[1..]) else None
      case _ => None
  }

  /** The update met an intermediate member that is not an object. */
  datatype Conflict = NotAnObject(segment: string)

  /** Sets the member at the dotted path `parts` of the object `m` to the
      string `value`. The top level keeps every other member; the value can
      be looked up at the path afterwards. */
  function SetPath(m: map<string, Json>, parts: seq<string>, value: string): (r: Result<map<string, Json>, Conflict>)
    requires |parts| >= 1
    ensures r.Success? ==> Lookup(JObject(r.value), parts) == Some(JString(value))
    ensures r.Success? ==> r.value.Keys == m.Keys + {parts[0]}
    ensures r.Success? ==> forall k :: k in m && k != parts[0] ==> r.value[k] == m[k]
    ensures r.Failure? ==> |parts| > 1 && r.error.segment in parts[..|parts| - 1]
    decreases |parts|
  {
    var head := parts[0];
    if |parts| == 1 then Success(m[head := JString(value)])
    else
      var child := if head in m then m[head] else JObject(map[]);
      if !child.JObject? then Failure(NotAnObject(head))
      else
        var sub :- SetPath(child.members, parts[1..], value);
        Success(m[head := JObject(sub)])
  }

  /** Absent, or an object: what an intermediate member must be. */
  predicate ObjectOrAbsent(o: Option<Json>) {
    o.None? || o.value.JObject?
  }

  /** No proper prefix of the path reaches anything but an object. */
  predicate PathClear(m: map<string, Json>, parts: seq<string>) {
    forall i :: 1 <= i < |parts| ==> ObjectOrAbsent(Lookup(JObject(m), parts[..i]))
  }

  /** Looking up a non-empty path in an object goes through its first member. */
  lemma LookupStep(m: map<string, Json>, path: seq<string>, i: nat)
    requires 1 <= i <= |path|
    ensures Lookup(JObject(m), path[..i]) ==
            if path[0] in m then Lookup(m[path[0]], path[1..][..i - 1]) else None
  {
    assert path[..i][1..] == path[1..][..i - 1];
  }

  /** Nothing can be found below a fresh empty object. */
  lemma LookupEmpty(path: seq<string>)
    requires |path| >= 1
    ensures Lookup(JObject(map[]), path) == None
  {
  }

  /** The update succeeds exactly when the path is clear of non-objects. */
  lemma {:induction false} SetPathSucceedsIff(m: map<string, Json>, parts: seq<string>, value: string)
    requires |parts| >= 1
    ensures SetPath(m, parts, value).Success? <==> PathClear(m, parts)
    decreases |parts|
  {
    if |parts| > 1 {
      var head := parts[0];
      var rest := parts[1..];
      var child := if head in m then m[head] else JObject(map[]);
      LookupStep(m, parts, 1);
      if child.JObject? {
        var cm := child.members;
        SetPathSucceedsIff(cm, rest, value);
        forall i | 2 <= i < |parts|
          ensures Lookup(JObject(m), parts[..i]) == Lookup(JObject(cm), rest[..i - 1])
        {
          LookupStep(m, parts, i);
          if head !in m {
            LookupEmpty(rest[..i - 1]);
          }
        }
        if PathClear(cm, rest) {
          forall i | 1 <= i < |parts|
            ensures ObjectOrAbsent(Lookup(JObject(m), parts[..i]))
          {
            if i >= 2 {
              assert ObjectOrAbsent(Lookup(JObject(cm), rest[..i - 1]));
            }
          }
        } else {
          var j :| 1 <= j < |rest| && !ObjectOrAbsent(Lookup(JObject(cm), rest[..j]));
          assert !ObjectOrAbsent(Lookup(JObject(m), parts[..j + 1]));
        }
      } else {
        assert !ObjectOrAbsent(Lookup(JObject(m), parts[..1]));
      }
    }
  }

  /** `q` leaves the updated path at some segment both share a position for. */
  predicate Diverges(q: seq<string>, parts: seq<string>) {
    exists i :: 0 <= i < |q| && i < |parts| && q[i] != parts[i]
  }

  /** Everything off the updated path is unchanged, at every depth: whatever
      a path that leaves `parts` reached before, it reaches afterwards. */
  lemma {:induction false} SetPathFrame(m: map<string, Json>, parts: seq<string>, value: string, q: seq<string>)
    requires |parts| >= 1
    requires SetPath(m, parts, value).Success?
    requires Diverges(q, parts)
    ensures Lookup(JObject(SetPath(m, parts, value).value), q) == Lookup(JObject(m), q)
    decreases |parts|
  {
    var r := SetPath(m, parts, value).value;
    var head := parts[0];
    if q[0] != head {
      assert q[0] in r <==> q[0] in m;
    } else {
      var i :| 0 <= i < |q| && i < |parts| && q[i] != parts[i];
      assert i > 0 && |parts| > 1;
      var rest := parts[1..];
      var child := if head in m then m[head] else JObject(map[]);
      var cm := child.members;
      var sub := SetPath(cm, rest, value).value;
      assert r[head] == JObject(sub);
      assert q[1..][i - 1] != rest[i - 1];
      SetPathFrame(cm, rest, value, q[1..]);
      if head !in m {
        LookupEmpty(q[1..]);
      }
    }
  }

  /** Setting the same key to the same value again changes nothing. */
  lemma {:induction false} SetPathIdempotent(m: map<string, Json>, parts: seq<string>, value: string)
    requires |parts| >= 1
    requires SetPath(m, parts, value).Success?
    ensures SetPath(SetPath(m, parts, value).value, parts, value) == SetPath(m, parts, value)
    decreases |parts|
  {
    if |parts| > 1 {
      var head := parts[0];
      var rest := parts[1..];
      var child := if head in m then m[head] else JObject(map[]);
      var sub := SetPath(child.members, rest, value).value;
      var r := SetPath(m, parts, value).value;
      assert r == m[head := JObject(sub)];
      SetPathIdempotent(child.members, rest, value);
      assert SetPath(sub, rest, value) == Success(sub);
      assert r[head := JObject(sub)] == r;
    } else {
      var r := m[parts[0] := JString(value)];
      assert r[parts[0] := JString(value)] == r;
    }
  }

  /** "net.ip" on an empty object creates the intermediate object. */
  lemma CreatesIntermediate()
    ensures SetPath(map[], ["net", "ip"], "10.0.0.1")
         == Success(map["net" := JObject(map["ip" := JString("10.0.0.1")])])
  {
    assert ["net", "ip"][1..] == ["ip"];
  }

  /** "server.host" beside an existing numeric "server.port": the number
      stays as it was and the new member is a string. */
  lemma AddsBesideExisting()
    ensures SetPath(map["server" := JObject(map["port" := JNumber("8080")])], ["server", "host"], "localhost")
         == Success(map["server" := JObject(map["port" := JNumber("8080"), "host" := JString("localhost")])])
  {
    var inner := map["port" := JNumber("8080")];
    assert ["server", "host"][1..] == ["host"];
    assert SetPath(inner, ["host"], "localhost") == Success(inner["host" := JString("localhost")]);
    var updated := map["port" := JNumber("8080"), "host" := JString("localhost")];
    assert inner["host" := JString("localhost")] == updated;
    var outer := map["server" := JObject(inner)];
    assert outer["server" := JObject(updated)] == map["server" := JObject(updated)];
  }

  /** The last segment replaces even an object; a string in the way of an
      intermediate segment is a conflict. */
  lemma OverwriteAndConflict()
    ensures SetPath(map["a" := JObject(map["b" := JNull])], ["a"], "v") == Success(map["a" := JString("v")])
    ensures SetPath(map["a" := JString("x")], ["a", "b"], "v") == Failure(NotAnObject("a"))
    ensures SetPath(map["a" := JNull], ["a", "b"], "v") == Failure(NotAnObject("a"))
  {
    assert map["a" := JObject(map["b" := JNull])]["a" := JString("v")] == map["a" := JString("v")];
  }
}

=== FILE: lineio.dfy ===
/** How the text backends turn file content into lines and back.

    Reading follows `bufio.Scanner` with its default line splitter: the
    content is cut at each line feed, one carriage return is dropped from
    the end of each piece, and a last piece without a line feed still counts
    as a line when it is not empty. Writing follows `fmt.Fprintln`: every
    line is written followed by a line feed. */
module LineIO {
  import opened Wrappers
  import opened Text

  /** A piece with one trailing carriage return removed, if present. */
  function DropCR(s: string): (r: string)
    ensures r == s || (|s| > 0 && s[|s| - 1] == '\r' && r == s[..|s| - 1])
  {
    if |s| > 0 && s[|s| - 1] == '\r' then s[..|s| - 1] else s
  }

  /** The lines a scanner yields from `content`. */
  function ScanLines(content: string): (lines: seq<string>)
    ensures forall i :: 0 <= i < |lines| ==> '\n' !in lines[i]
    ensures |content| == 0 <==> |lines| == 0
    ensures |content| > 0 && '\n' !in content ==> lines == [DropCR(content)]
    decreases |content|
  {
    if |content| == 0 then []
    else match IndexOf(content, '\n')
      case None => [DropCR(content)]
      case Some(i) => [DropCR(content[..i])] + ScanLines(content[i + 1..])
  }

  /** A sequence of pieces without its last one when that is empty. */
  function DropEmptyLast(p: seq<string>): (r: seq<string>)
    requires |p| >= 1
  {
    if p[|p| - 1] == "" then p[..|p| - 1] else p
  }

  /** The pieces `strings.Split` cuts at line feeds, without the empty
      piece that follows a final line feed. */
  function Pieces(content: string): seq<string> {
    DropEmptyLast(Split(content, '\n'))
  }

  /** Each piece with one trailing carriage return removed. */
  function DropEach(pieces: seq<string>): seq<string> {
    seq(|pieces|, i requires 0 <= i < |pieces| => DropCR(pieces[i]))
  }

  lemma DropEmptyLastCons(h: string, q: seq<string>)
    requires |q| >= 1
    ensures DropEmptyLast([h] + q) == [h] + DropEmptyLast(q)
  {
    var p := [h] + q;
    assert p[|p| - 1] == q[|q| - 1];
    if q[|q| - 1] == "" {
      assert p[..|p| - 1] == [h] + q[..|q| - 1];
    }
  }

  lemma DropEachIndex(pieces: seq<string>, i: nat)
    requires i < |pieces|
    ensures |DropEach(pieces)| == |pieces| && DropEach(pieces)[i] == DropCR(pieces[i])
  {
  }

  lemma DropEachLength(pieces: seq<string>)
    ensures |DropEach(pieces)| == |pieces|
  {
  }

  lemma DropEachFirst(lines: seq<string>)
    requires |lines| > 0
    ensures DropEach(lines) == [DropCR(lines[0])] + DropEach(lines[1..])
  {
    DropEachCons(lines[0], lines[1..]);
    assert lines == [lines[0]] + lines[1..];
  }

  lemma DropEachCons(h: string, q: seq<string>)
    ensures DropEach([h] + q) == [DropCR(h)] + DropEach(q)
  {
  }

  /** The scanner yields exactly the line-feed pieces of the content, a
      trailing empty one left out, each with one carriage return dropped. */
  lemma {:induction false} ScanLinesSplit(content: string)
    ensures ScanLines(content) == DropEach(Pieces(content))
    decreases |content|
  {
    if |content| == 0 {
      assert Split(content, '\n') == [""];
    } else {
      match IndexOf(content, '\n')
      case None =>
        assert Split(content, '\n') == [content];
      case Some(i) =>
        var rest := content[i + 1..];
        var parts := Split(rest, '\n');
        assert Split(content, '\n') == [content[..i]] + parts;
        assert ScanLines(content) == [DropCR(content[..i])] + ScanLines(rest);
        ScanLinesSplit(rest);
        DropEmptyLastCons(content[..i], parts);
        DropEachCons(content[..i], Pieces(rest));
    }
  }

  /** The content written for `lines`: each line and a line feed. */
  function Unlines(lines: seq<string>): string {
    if |lines| == 0 then "" else lines[0] + "\n" + Unlines(lines[1..])
  }

  /** A line that reads back as itself: no line feed inside it and no
      carriage return at its end. */
  predicate Stable(line: string) {
    '\n' !in line && (|line| == 0 || line[|line| - 1] != '\r')
  }

  /** Lines that are all stable survive being written and read back. */
  lemma {:induction false} ScanUnlines(lines: seq<string>)
    requires forall i :: 0 <= i < |lines| ==> Stable(lines[i])
    ensures ScanLines(Unlines(lines)) == lines
    decreases |lines|
  {
    if |lines| > 0 {
      var l := lines[0];
      var rest := Unlines(lines[1..]);
      ScanFirstLine(l, rest);
      DropCRStable(l);
      ScanUnlines(lines[1..]);
      assert lines == [l] + lines[1..];
    }
  }

  /** Lines without line feeds, written and read back, come back each with
      one trailing carriage return dropped. */
  lemma {:induction false} ScanUnlinesDrop(lines: seq<string>)
    requires forall i :: 0 <= i < |lines| ==> '\n' !in lines[i]
    ensures ScanLines(Unlines(lines)) == DropEach(lines)
    decreases |lines|
  {
    if |lines| > 0 {
      var l, tail := lines[0], lines[1..];
      assert forall i :: 0 <= i < |tail| ==> '\n' !in tail[i] by {
        forall i | 0 <= i < |tail|
          ensures '\n' !in tail[i]
        {
          assert tail[i] == lines[i + 1];
        }
      }
      ScanUnlinesDrop(tail);
      assert Unlines(lines) == l + "\n" + Unlines(tail);
      ScanFirstLine(l, Unlines(tail));
      DropEachFirst(lines);
    }
  }

  /** The first line runs up to the first line feed. */
  lemma ScanFirstLine(p: string, tail: string)
    requires '\n' !in p
    ensures ScanLines(p + "\n" + tail) == [DropCR(p)] + ScanLines(tail)
  {
    var c := p + "\n" + tail;
    assert c[..|p|] == p;
    IndexOfFirst(c, '\n', |p|);
    assert c[|p| + 1..] == tail;
  }

  /** Stable lines followed by a non-empty last line without a line feed
      read back as those lines and the last one, with one carriage return
      dropped from it. */
  lemma {:induction false} ScanUnterminated(lines: seq<string>, last: string)
    requires forall i :: 0 <= i < |lines| ==> Stable(lines[i])
    requires |last| > 0 && '\n' !in last
    ensures ScanLines(Unlines(lines) + last) == lines + [DropCR(last)]
    decreases |lines|
  {
    if |lines| > 0 {
      var l, tail := lines[0], lines[1..];
      var x := Unlines(tail) + last;
      assert forall i :: 0 <= i < |tail| ==> Stable(tail[i]) by {
        forall i | 0 <= i < |tail|
          ensures Stable(tail[i])
        {
          assert tail[i] == lines[i + 1];
        }
      }
      ScanUnterminated(tail, last);
      ScanStableFirst(l, x);
      assert Unlines(lines) == l + "\n" + Unlines(tail);
      UnlinesAppend(l, Unlines(tail), last);
      ConsSnoc(lines, DropCR(last));
    } else {
      assert Unlines(lines) + last == last;
    }
  }

  lemma ConsSnoc(lines: seq<string>, d: string)
    requires |lines| > 0
    ensures lines + [d] == [lines[0]] + (lines[1..] + [d])
  {
  }

  /** A stable first line reads as itself, followed by the rest's lines. */
  lemma ScanStableFirst(l: string, x: string)
    requires Stable(l)
    ensures ScanLines(l + "\n" + x) == [l] + ScanLines(x)
  {
    ScanFirstLine(l, x);
    DropCRStable(l);
  }

  lemma UnlinesAppend(l: string, rest: string, last: string)
    ensures (l + "\n" + rest) + last == l + "\n" + (rest + last)
  {
  }

  lemma UnlinesTwo(a: string, b: string)
    ensures Unlines([a, b]) == a + "\n" + (b + "\n")
  {
    assert [a, b][1..] == [b] && [b][1..] == [];
    assert Unlines([b]) == b + "\n" + "";
  }

  lemma ScanOneLine(e: string)
    requires Stable(e)
    ensures ScanLines(e + "\n") == [e]
  {
    ScanFirstLine(e, "");
    assert e + "\n" + "" == e + "\n";
  }

  /** A stable line keeps nothing to drop; one carriage return more is
      exactly what is dropped. */
  lemma DropCRStable(x: string)
    requires Stable(x)
    ensures DropCR(x) == x && DropCR(x + "\r") == x
  {
    assert (x + "\r")[..|x|] == x;
  }

  /** A line `x` followed by two carriage returns reads as `x` and one of them. */
  lemma ReadDropsOneCarriageReturn(x: string)
    requires Stable(x)
    ensures ScanLines(x + "\r\r\n") == [x + "\r"]
  {
    var p := x + "\r\r";
    assert '\n' !in p;
    ScanFirstLine(p, "");
    assert p + "\n" + "" == x + "\r\r\n";
    assert p[..|p| - 1] == x + "\r";
  }

  /** Written back with its one carriage return, the line reads as `x`. */
  lemma ReadDropsTheOther(x: string, e: string)
    requires Stable(x) && Stable(e)
    ensures ScanLines(Unlines([x + "\r", e])) == [x, e]
  {
    var p := x + "\r";
    assert '\n' !in p;
    UnlinesTwo(p, e);
    ScanFirstLine(p, e + "\n");
    ScanOneLine(e);
    DropCRStable(x);
  }
}

=== FILE: linepatch.dfy ===
/** The line transformation shared by the plain-text and INI backends.

    Every line that starts with `key=` is replaced by `key=value`; every
    other line is kept as it is, in place. When no line matched, one
    `key=value` line is appended. Nothing is special about `[section]`
    headers: they are lines like any other, so a matching line is replaced
    in whatever section it sits. */
module LinePatch {
  import opened Text

  /** The line written for `key` and `value`. */
  function Entry(key: string, value: string): string {
    key + "=" + value
  }

  /** A line assigns `key` when it starts with `key=`. */
  predicate Matches(line: string, key: string) {
    HasPrefix(line, key + "=")
  }

  /** Text after a matching line's prefix does not change that it matches. */
  lemma MatchesExtends(line: string, more: string, key: string)
    ensures Matches(line, key) ==> Matches(line + more, key)
  {
    if Matches(line, key) {
      assert (line + more)[..|key + "="|] == line[..|key + "="|];
    }
  }

  predicate AnyMatch(lines: seq<string>, key: string) {
    exists i :: 0 <= i < |lines| && Matches(lines[i], key)
  }

  /** The entry itself assigns its key, so writing it is always found again. */
  lemma EntryMatches(key: string, value: string)
    ensures Matches(Entry(key, value), key)
  {
    assert Entry(key, value)[..|key + "="|] == key + "=";
  }

  /** What the scanning loop has produced so far. */
  datatype Scanned = Scanned(lines: seq<string>, found: bool)

  /** The scanning loop: lines in order, each matching one replaced, and
      whether any matched. */
  function ScanReplace(lines: seq<string>, key: string, value: string): (s: Scanned)
    ensures |s.lines| == |lines|
    ensures forall i :: 0 <= i < |lines| ==>
              s.lines[i] == (if Matches(lines[i], key) then Entry(key, value) else lines[i])
    ensures s.found <==> AnyMatch(lines, key)
    decreases |lines|
  {
    if |lines| == 0 then Scanned([], false)
    else
      var before := lines[..|lines| - 1];
      var line := lines[|lines| - 1];
      var prev := ScanReplace(before, key, value);
      assert forall i :: 0 <= i < |before| ==> before[i] == lines[i];
      if Matches(line, key) then Scanned(prev.lines + [Entry(key, value)], true)
      else Scanned(prev.lines + [line], prev.found)
  }

  /** The lines the plain-text and INI backends write back. */
  function PatchLines(lines: seq<string>, key: string, value: string): (r: seq<string>)
    ensures AnyMatch(lines, key) ==> |r| == |lines|
    ensures !AnyMatch(lines, key) ==> |r| == |lines| + 1 && r[|lines|] == Entry(key, value)
    ensures forall i :: 0 <= i < |lines| ==>
              r[i] == (if Matches(lines[i], key) then Entry(key, value) else lines[i])
  {
    var s := ScanReplace(lines, key, value);
    if s.found then s.lines else s.lines + [Entry(key, value)]
  }

  /** After a patch the key is always assigned, and only by `key=value` lines. */
  lemma PatchAssigns(lines: seq<string>, key: string, value: string)
    ensures AnyMatch(PatchLines(lines, key, value), key)
    ensures forall l :: l in PatchLines(lines, key, value) && Matches(l, key) ==> l == Entry(key, value)
  {
    var r := PatchLines(lines, key, value);
    EntryMatches(key, value);
    if AnyMatch(lines, key) {
      var i :| 0 <= i < |lines| && Matches(lines[i], key);
      assert Matches(r[i], key);
    } else {
      assert Matches(r[|lines|], key);
    }
  }

  /** Writing the same key and value twice gives the lines writing it once gives. */
  lemma PatchIdempotent(lines: seq<string>, key: string, value: string)
    ensures PatchLines(PatchLines(lines, key, value), key, value) == PatchLines(lines, key, value)
  {
    var r := PatchLines(lines, key, value);
    PatchAssigns(lines, key, value);
    forall i | 0 <= i < |r| && Matches(r[i], key)
      ensures r[i] == Entry(key, value)
    {
      assert r[i] in r;
    }
    PatchFixedPoint(r, key, value);
  }

  /** With no line assigning the key, the patch appends the entry and
      changes nothing else. */
  lemma PatchAppendsWhenAbsent(lines: seq<string>, key: string, value: string)
    requires !AnyMatch(lines, key)
    ensures PatchLines(lines, key, value) == lines + [Entry(key, value)]
  {
    var r := PatchLines(lines, key, value);
    forall i | 0 <= i < |lines|
      ensures r[i] == lines[i]
    {
      assert !Matches(lines[i], key);
    }
  }

  /** Lines that already assign the key, and only as `key=value`, are left
      exactly as they are. */
  lemma PatchFixedPoint(lines: seq<string>, key: string, value: string)
    requires AnyMatch(lines, key)
    requires forall i :: 0 <= i < |lines| && Matches(lines[i], key) ==> lines[i] == Entry(key, value)
    ensures PatchLines(lines, key, value) == lines
  {
  }

  /** The lines that do not assign `key`, in order. */
  function Unmatched(lines: seq<string>, key: string): seq<string>
    decreases |lines|
  {
    if |lines| == 0 then []
    else
      var last := lines[|lines| - 1];
      Unmatched(lines[..|lines| - 1], key) + (if Matches(last, key) then [] else [last])
  }

  lemma {:induction false} UnmatchedPointwise(a: seq<string>, b: seq<string>, key: string, value: string)
    requires |a| == |b|
    requires forall i :: 0 <= i < |a| ==> b[i] == (if Matches(a[i], key) then Entry(key, value) else a[i])
    ensures Unmatched(b, key) == Unmatched(a, key)
    decreases |a|
  {
    if |a| > 0 {
      var n := |a| - 1;
      UnmatchedPointwise(a[..n], b[..n], key, value);
      EntryMatches(key, value);
    }
  }

  /** The lines other than the key's own come out exactly as they went in,
      in the same order. */
  lemma PatchKeepsOtherLines(lines: seq<string>, key: string, value: string)
    ensures Unmatched(PatchLines(lines, key, value), key) == Unmatched(lines, key)
  {
    var r := PatchLines(lines, key, value);
    UnmatchedPointwise(lines, r[..|lines|], key, value);
    if !AnyMatch(lines, key) {
      EntryMatches(key, value);
      assert r[..|r| - 1] == r[..|lines|];
    } else {
      assert r[..|lines|] == r;
    }
  }

  /** An empty file gets exactly the one line. */
  lemma PatchEmpty(key: string, value: string)
    ensures PatchLines([], key, value) == [Entry(key, value)]
  {
  }

  /** A `[section]` header never assigns a key that has no `[` in it. */
  lemma HeaderNeverMatches(name: string, key: string)
    requires '[' !in key
    ensures !Matches("[" + name + "]", key)
  {
    var h := "[" + name + "]";
    assert h[0] != (key + "=")[0];
  }

  /** Section headers do not scope keys: the key's line is replaced in
      every section it appears in. */
  lemma SectionsAreOrdinaryLines(a: string, b: string, key: string, old1: string, old2: string, value: string)
    requires '[' !in key
    ensures var lines := ["[" + a + "]", Entry(key, old1), "[" + b + "]", Entry(key, old2)];
            PatchLines(lines, key, value) == ["[" + a + "]", Entry(key, value), "[" + b + "]", Entry(key, value)]
  {
    var lines := ["[" + a + "]", Entry(key, old1), "[" + b + "]", Entry(key, old2)];
    HeaderNeverMatches(a, key);
    HeaderNeverMatches(b, key);
    EntryMatches(key, old1);
    EntryMatches(key, old2);
    assert Matches(lines[1], key);
  }

  /** The `=` after the key keeps "host" from matching a "hostname=" line. */
  lemma KeyPrefixNeedsEquals()
    ensures !Matches("hostname=x", "host")
    ensures Matches("host=x", "host")
  {
    assert "host=x"[..5] == "host=";
    assert "hostname=x"[4] == 'n';
  }

  /** Two different keys without `=` in them never match each other's
      lines: the `=` after the key rules out one key being a prefix of the
      other. */
  lemma DistinctKeysDoNotMatch(a: string, b: string, x: string)
    requires a != b && '=' !in a && '=' !in b
    ensures !Matches(Entry(a, x), b)
  {
    var line := Entry(a, x);
    var p := b + "=";
    if |p| <= |line| {
      if |b| < |a| {
        assert a[|b|] in a;
        assert line[..|p|][|b|] != p[|b|];
      } else if |b| == |a| {
        assert line[..|p|][..|b|] == a && p[..|b|] == b;
      } else {
        assert b[|a|] in b;
        assert line[..|p|][|a|] != p[|a|];
      }
    }
  }
}

=== FILE: paths.dfy ===
/** Go's `filepath.Ext` with the Unix separator `/`: the suffix of the path
    that starts at the last `.` of its final element, or nothing when the
    final element has no `.`. */
module Paths {

  /** Every `.` at or after position `from` is followed, later on, by a `/`:
      no dot of the final element lies there. */
  predicate NoDotInFinalElement(path: string, from: nat) {
    forall i :: from <= i < |path| && path[i] == '.' ==> exists j :: i < j < |path| && path[j] == '/'
  }

  function Ext(path: string): (e: string)
    ensures |e| <= |path| && path[|path| - |e|..] == e
    ensures e != "" ==> e[0] == '.' && '.' !in e[1..] && '/' !in e
    ensures e == "" <==> NoDotInFinalElement(path, 0)
    decreases |path|
  {
    if |path| == 0 then ""
    else
      var c := path[|path| - 1];
      if c == '/' then ""
      else if c == '.' then "."
      else
        var prefix := path[..|path| - 1];
        var e := Ext(prefix);
        if e == "" then
          assert NoDotInFinalElement(path, 0) by {
            forall i | 0 <= i < |path| && path[i] == '.'
              ensures exists j :: i < j < |path| && path[j] == '/'
            {
              assert prefix[i] == '.';
              var j :| i < j < |prefix| && prefix[j] == '/';
              assert path[j] == '/';
            }
          }
          ""
        else e + [c]
  }

  /** `e` is the extension of `path` when `path` ends in `e`, `e` starts with
      the only `.` in it and holds no `/`. */
  lemma ExtIs(path: string, e: string)
    requires |e| >= 1 && |e| <= |path| && path[|path| - |e|..] == e
    requires e[0] == '.' && '.' !in e[1..] && '/' !in e
    ensures Ext(path) == e
  {
  }

  /** A path whose final element, after the `/` at `k`, has no `.` has no
      extension, whatever dots come before. */
  lemma ExtNone(path: string, k: nat)
    requires k < |path| && path[k] == '/' && '.' !in path[k + 1..]
    ensures Ext(path) == ""
  {
  }
}

=== FILE: platform.dfy ===
/** Library calls the validators make but the model does not look inside.

    `parseIP` answers whether Go's `net.ParseIP` accepts a string (IPv4
    dotted-decimal, or IPv6 text as in section 2.2 of RFC 4291).
    `absPath` answers whether `filepath.Abs` succeeds on a string; on Unix
    that depends on the process's working directory. Both are parameters of
    every member that consults them. */
module Platform {

  datatype Oracles = Oracles(parseIP: string -> bool, absPath: string -> bool)
}

=== FILE: scenario.dfy ===
/** The scenario model: steps, the structural check of a scenario, and the
    per-type acceptance rule for an operator's answer. */
module Scenarios {
  import opened Wrappers
  import opened Text
  import opened Strconv
  import opened ValueTypes
  import opened Platform

  /** One prompt of the scenario: the file and key to write, the declared
      type, a hint for the operator, the allowed values of an enum and an
      optional default. */
  datatype Step = Step(
    file: string,
    key: string,
    valueType: ValueType,
    comment: string,
    enumValues: seq<string>,
    defaultValue: Option<string>)

  datatype Scenario = Scenario(steps: seq<Step>)

  /** Why a single step is malformed, in the order the checks are made. */
  datatype StepFault =
    | MissingFile
    | MissingKey
    | UnsupportedType(valueType: ValueType)
    | EnumWithoutValues
    | BadFilePath

  /** Why a scenario is rejected; `step` counts from 1. */
  datatype ScenarioError = NoSteps | StepError(step: nat, fault: StepFault)

  /** Why an answer is rejected; each carries what the message shows. */
  datatype ValueError =
    | NotAnInteger(input: string)
    | NotABool(input: string)
    | InvalidIP(input: string)
    | PortOutOfRange(input: string)
    | InvalidPath(input: string)
    | NotInEnum(allowed: seq<string>)
    | UnknownType(name: string)

  /** The type is one of the eight supported ones. */
  function IsValid(t: ValueType): (b: bool)
    ensures b <==> Name(t) in KnownNames
  {
    match t
    case TypeString | TypeInt | TypeBool | TypeIP | TypePort | TypeAny | TypeEnum | TypePath => true
    case Other(_) => false
  }

  /** What a usable step is: a file, a key, a supported type, at least one
      allowed value for an enum, and a file path `filepath.Abs` accepts. */
  predicate WellFormedStep(s: Step, o: Oracles) {
    && s.file != ""
    && s.key != ""
    && Name(s.valueType) in KnownNames
    && (s.valueType == TypeEnum ==> |s.enumValues| > 0)
    && o.absPath(s.file)
  }

  /** The checks made on one step, in order; the first that fails is reported. */
  function CheckStep(s: Step, o: Oracles): (r: Option<StepFault>)
    ensures r.None? <==> WellFormedStep(s, o)
    ensures s.file == "" ==> r == Some(MissingFile)
    ensures s.file != "" && s.key == "" ==> r == Some(MissingKey)
    ensures s.file != "" && s.key != "" && Name(s.valueType) !in KnownNames
            ==> r == Some(UnsupportedType(s.valueType))
    ensures r == Some(EnumWithoutValues)
            <==> s.file != "" && s.key != "" && s.valueType == TypeEnum && |s.enumValues| == 0
    ensures r == Some(BadFilePath)
            <==> && s.file != "" && s.key != "" && Name(s.valueType) in KnownNames
                 && !(s.valueType == TypeEnum && |s.enumValues| == 0)
                 && !o.absPath(s.file)
  {
    if s.file == "" then Some(MissingFile)
    else if s.key == "" then Some(MissingKey)
    else if !IsValid(s.valueType) then Some(UnsupportedType(s.valueType))
    else if s.valueType == TypeEnum && |s.enumValues| == 0 then Some(EnumWithoutValues)
    else if !o.absPath(s.file) then Some(BadFilePath)
    else None
  }

  /** `Scenario.Validate`: a scenario passes iff it has steps and every step
      is well formed; otherwise the error names the first bad step. */
  method Validate(sc: Scenario, o: Oracles) returns (r: Outcome<ScenarioError>)
    ensures |sc.steps| == 0 ==> r == Fail(NoSteps)
    ensures r.Pass? <==> |sc.steps| > 0 && forall i :: 0 <= i < |sc.steps| ==> WellFormedStep(sc.steps[i], o)
    ensures r.Fail? && |sc.steps| > 0 ==>
              && r.error.StepError?
              && 1 <= r.error.step <= |sc.steps|
              && CheckStep(sc.steps[r.error.step - 1], o) == Some(r.error.fault)
              && forall j :: 0 <= j < r.error.step - 1 ==> WellFormedStep(sc.steps[j], o)
  {
    if |sc.steps| == 0 {
      return Fail(NoSteps);
    }
    var i := 0;
    while i < |sc.steps|
      invariant 0 <= i <= |sc.steps|
      invariant forall j :: 0 <= j < i ==> WellFormedStep(sc.steps[j], o)
    {
      var fault := CheckStep(sc.steps[i], o);
      if fault.Some? {
        return Fail(StepError(i + 1, fault.value));
      }
      i := i + 1;
    }
    return Pass;
  }

  /** The loop over the allowed values of an enum. */
  function Contains(values: seq<string>, input: string): (b: bool)
    ensures b <==> input in values
  {
    if |values| == 0 then false
    else if values[0] == input then true
    else Contains(values[1..], input)
  }

  /** The port rule: an `Atoi` value from 1 to 65535. */
  predicate IsPort(s: string) {
    AtoiAccepts(s) && 1 <= DecimalValue(s) <= 65535
  }

  /** `ValueType.ValidateValue`: whether an answer is acceptable for a type. */
  function ValidateValue(t: ValueType, input: string, enumValues: seq<string>, o: Oracles): (r: Outcome<ValueError>)
    ensures t == TypeString || t == TypeAny ==> r == Pass
    ensures t == TypeInt ==> r == (if AtoiAccepts(input) then Pass else Fail(NotAnInteger(input)))
    ensures t == TypeBool ==>
              r == (if FoldsTo(input, "true") || FoldsTo(input, "false") then Pass else Fail(NotABool(input)))
    ensures t == TypeIP ==> r == (if o.parseIP(input) then Pass else Fail(InvalidIP(input)))
    ensures t == TypePort ==> r == (if IsPort(input) then Pass else Fail(PortOutOfRange(input)))
    ensures t == TypePath ==> r == (if o.absPath(input) then Pass else Fail(InvalidPath(input)))
    ensures t == TypeEnum ==> r == (if input in enumValues then Pass else Fail(NotInEnum(enumValues)))
    ensures t.Other? ==> r == Fail(UnknownType(t.name))
  {
    match t
    case TypeString | TypeAny => Pass
    case TypeInt =>
      if Atoi(input).None? then Fail(NotAnInteger(input)) else Pass
    case TypeBool =>
      var lower := Lower(input);
      FoldsToLower(input, "true");
      FoldsToLower(input, "false");
      if lower != "true" && lower != "false" then Fail(NotABool(input)) else Pass
    case TypeIP =>
      if !o.parseIP(input) then Fail(InvalidIP(input)) else Pass
    case TypePort =>
      var p := Atoi(input);
      if p.None? || p.value < 1 || p.value > 65535 then Fail(PortOutOfRange(input)) else Pass
    case TypePath =>
      if !o.absPath(input) then Fail(InvalidPath(input)) else Pass
    case TypeEnum =>
      if Contains(enumValues, input) then Pass else Fail(NotInEnum(enumValues))
    case Other(name) => Fail(UnknownType(name))
  }

  /** Every integer in the int64 range, written in decimal, is accepted as
      an int; the decimal form of any integer outside it is rejected. */
  lemma IntRange(n: int, enumValues: seq<string>, o: Oracles)
    ensures ValidateValue(TypeInt, Itoa(n), enumValues, o)
            == if MinInt64 <= n <= MaxInt64 then Pass else Fail(NotAnInteger(Itoa(n)))
  {
    AtoiItoa(n);
  }

  /** Ports written in canonical decimal form are accepted exactly from 1
      to 65535. */
  lemma PortRange(n: int, enumValues: seq<string>, o: Oracles)
    ensures ValidateValue(TypePort, Itoa(n), enumValues, o)
            == if 1 <= n <= 65535 then Pass else Fail(PortOutOfRange(Itoa(n)))
  {
    AtoiItoa(n);
  }

  /** Ports: a leading plus sign and leading zeros are accepted, as the
      integer parser allows them; an empty answer and words are not. */
  lemma PortSyntax(enumValues: seq<string>, o: Oracles)
    ensures ValidateValue(TypePort, "+80", enumValues, o) == Pass
    ensures ValidateValue(TypePort, "0080", enumValues, o) == Pass
    ensures ValidateValue(TypePort, "", enumValues, o) == Fail(PortOutOfRange(""))
    ensures ValidateValue(TypePort, " 80", enumValues, o) == Fail(PortOutOfRange(" 80"))
  {
    AtoiExamples();
  }

  /** Booleans: any letter case of "true" or "false", nothing else. */
  lemma BoolExamples(enumValues: seq<string>, o: Oracles)
    ensures ValidateValue(TypeBool, "TRUE", enumValues, o).Pass?
    ensures ValidateValue(TypeBool, "False", enumValues, o).Pass?
    ensures ValidateValue(TypeBool, "1", enumValues, o) == Fail(NotABool("1"))
    ensures ValidateValue(TypeBool, "yes", enumValues, o).Fail?
    ensures ValidateValue(TypeBool, "", enumValues, o).Fail?
    ensures ValidateValue(TypeBool, "true ", enumValues, o).Fail?
  {
    assert LowerChar("true "[0]) != "false"[0];
  }

  /** Enums compare exactly; an empty list of allowed values rejects all. */
  lemma EnumExamples(o: Oracles)
    ensures ValidateValue(TypeEnum, "debug", ["debug", "info"], o).Pass?
    ensures ValidateValue(TypeEnum, "DEBUG", ["debug", "info"], o) == Fail(NotInEnum(["debug", "info"]))
    ensures forall input :: ValidateValue(TypeEnum, input, [], o).Fail?
  {
  }
}

=== FILE: strconv.dfy ===
/** Go's `strconv.Atoi` on a 64-bit platform, and the decimal formatting
    (`strconv.Itoa`) it inverts.

    `Atoi` accepts an optional single `+` or `-`, then one or more ASCII
    decimal digits and nothing else (no spaces, no underscores), and fails
    when the value lies outside the signed 64-bit range. Leading zeros are
    allowed, so "0080" and "+80" both denote 80. */
module Strconv {
  import opened Wrappers

  const MinInt64: int := -0x8000_0000_0000_0000
  const MaxInt64: int := 0x7FFF_FFFF_FFFF_FFFF

  predicate IsDigit(c: char) {
    '0' <= c <= '9'
  }

  predicate AllDigits(d: string) {
    forall i :: 0 <= i < |d| ==> IsDigit(d[i])
  }

  function DigitValue(c: char): (v: nat)
    requires IsDigit(c)
    ensures v < 10
  {
    c as int - '0' as int
  }

  function Pow10(n: nat): (p: nat)
    ensures p >= 1
  {
    if n == 0 then 1 else 10 * Pow10(n - 1)
  }

  /** The number a digit string denotes in positional notation: the first
      digit weighs 10^(length-1), the last weighs 1. */
  function DigitsValue(d: string): nat
    requires AllDigits(d)
  {
    if |d| == 0 then 0 else DigitValue(d[0]) * Pow10(|d| - 1) + DigitsValue(d[1..])
  }

  /** `s` without its leading sign, if it has one. */
  function Magnitude(s: string): string {
    if |s| > 0 && (s[0] == '+' || s[0] == '-') then s[1..] else s
  }

  /** The syntax `Atoi` accepts: an optional sign followed by one or more digits. */
  predicate IsDecimal(s: string) {
    |Magnitude(s)| > 0 && AllDigits(Magnitude(s))
  }

  /** The signed number a decimal string denotes. */
  function DecimalValue(s: string): int
    requires IsDecimal(s)
  {
    var magnitude: int := DigitsValue(Magnitude(s));
    if s[0] == '-' then -magnitude else magnitude
  }

  /** The inputs `Atoi` accepts: decimal syntax and a value in the int64 range. */
  predicate AtoiAccepts(s: string) {
    IsDecimal(s) && MinInt64 <= DecimalValue(s) <= MaxInt64
  }

  /** Go's digit loop: `n = n*10 + digit` for each digit, left to right. */
  function Accumulate(n: int, d: string): int
    requires AllDigits(d)
    decreases |d|
  {
    if |d| == 0 then n else Accumulate(n * 10 + DigitValue(d[0]), d[1..])
  }

  /** Distribution steps for the digit arithmetic, stated over plain
      variables so that no other fact is in scope. */
  lemma ShiftDistributes(n: int, v: int, p: int)
    ensures (n * 10 + v) * p == n * (10 * p) + v * p
  {
  }

  lemma ShiftFactors(v: int, p: int, rest: int, c: int)
    ensures v * (10 * p) + rest * 10 + c == (v * p + rest) * 10 + c
  {
  }

  /** The digit loop started from `n` yields `n` shifted left by the digits,
      plus their positional value. */
  lemma {:induction false} AccumulateValue(n: int, d: string)
    requires AllDigits(d)
    ensures Accumulate(n, d) == n * Pow10(|d|) + DigitsValue(d)
    decreases |d|
  {
    if |d| > 0 {
      var v := DigitValue(d[0]);
      var p := Pow10(|d| - 1);
      AccumulateValue(n * 10 + v, d[1..]);
      ShiftDistributes(n, v, p);
    }
  }

  /** `strconv.Atoi`: the value of `s`, or `None` for a syntax or range error. */
  function Atoi(s: string): (r: Option<int>)
    ensures r.Some? <==> AtoiAccepts(s)
    ensures r.Some? ==> r.value == DecimalValue(s)
  {
    var digits := Magnitude(s);
    if |digits| == 0 || !AllDigits(digits) then None
    else
      var n := Accumulate(0, digits);
      AccumulateValue(0, digits);
      var v := if s[0] == '-' then -n else n;
      if MinInt64 <= v <= MaxInt64 then Some(v) else None
  }

  function DigitChar(v: nat): (c: char)
    requires v < 10
    ensures IsDigit(c) && DigitValue(c) == v
  {
    ('0' as int + v) as char
  }

  /** Decimal digits of a natural number, without leading zeros. */
  function Digits(n: nat): (d: string)
    ensures |d| > 0 && AllDigits(d)
  {
    if n < 10 then [DigitChar(n)] else Digits(n / 10) + [DigitChar(n % 10)]
  }

  /** `strconv.Itoa`: a `-` for negative numbers, then the digits. */
  function Itoa(n: int): string {
    if n < 0 then "-" + Digits(-n) else Digits(n)
  }

  /** Appending a digit multiplies the value by ten and adds the digit. */
  lemma {:induction false} DigitsValueSnoc(d: string, c: char)
    requires AllDigits(d) && IsDigit(c)
    ensures AllDigits(d + [c])
    ensures DigitsValue(d + [c]) == DigitsValue(d) * 10 + DigitValue(c)
    decreases |d|
  {
    var e := d + [c];
    if |d| > 0 {
      assert e[1..] == d[1..] + [c];
      DigitsValueSnoc(d[1..], c);
      ShiftFactors(DigitValue(d[0]), Pow10(|d| - 1), DigitsValue(d[1..]), DigitValue(c));
    }
  }

  lemma {:induction false} DigitsDenote(n: nat)
    ensures DigitsValue(Digits(n)) == n
  {
    if n >= 10 {
      DigitsDenote(n / 10);
      DigitsValueSnoc(Digits(n / 10), DigitChar(n % 10));
    }
  }

  /** `Atoi` reads back every int64 that `Itoa` writes, and rejects the
      decimal form of every integer outside that range. */
  lemma AtoiItoa(n: int)
    ensures Atoi(Itoa(n)) == if MinInt64 <= n <= MaxInt64 then Some(n) else None
  {
    if n < 0 {
      assert Magnitude(Itoa(n)) == Digits(-n);
      DigitsDenote(-n);
    } else {
      var d := Digits(n);
      assert d[0] != '-' && d[0] != '+';
      assert Magnitude(d) == d;
      DigitsDenote(n);
    }
  }

  /** Leading signs and zeros: "+80" and "0080" both read as 80; a bare sign,
      the empty string, a space and an underscore are all rejected. */
  lemma AtoiExamples()
    ensures Atoi("+80") == Some(80)
    ensures Atoi("0080") == Some(80)
    ensures Atoi("-5") == Some(-5)
    ensures Atoi("") == None
    ensures Atoi("+") == None
    ensures Atoi("-") == None
    ensures Atoi(" 80") == None
    ensures Atoi("1_000") == None
  {
    assert Magnitude("+80") == "80";
    assert DigitsValue("80") == 80 by { assert "80"[1..] == "0"; }
    assert Magnitude("0080") == "0080";
    assert DigitsValue("0080") == 80 by {
      assert "0080"[1..] == "080";
      assert "080"[1..] == "80";
      assert "80"[1..] == "0";
    }
    assert Magnitude("-5") == "5";
    assert !IsDigit(" 80"[0]);
    assert !IsDigit("1_000"[1]);
  }
}

=== FILE: text.dfy ===
/** The few pieces of Go's `strings` package the core relies on:
    `ToLower`, `HasPrefix`, `Split` with a one-character separator, and
    the `Join` that undoes it. */
module Text {
  import opened Wrappers

  /** Lower-case form of one character, following Go's `unicode.ToLower`
      for every character whose lower-case form is ASCII: the ASCII capitals,
      U+0130 (capital I with dot above, lowered to `i`) and U+212A (Kelvin
      sign, lowered to `k`). Every other character is left as it is; Go
      lowers some of them to other non-ASCII characters, which never matters
      here because every lowered string is only ever compared with an ASCII
      word. */
  function LowerChar(c: char): (r: char)
    ensures 'a' <= r <= 'z' <==> ('a' <= c <= 'z' || 'A' <= c <= 'Z' || c == '\U{0130}' || c == '\U{212A}')
    ensures 'A' <= c <= 'Z' ==> r as int == c as int + 32
    ensures c == '\U{0130}' ==> r == 'i'
    ensures c == '\U{212A}' ==> r == 'k'
    ensures !('A' <= c <= 'Z' || c == '\U{0130}' || c == '\U{212A}') ==> r == c
  {
    if 'A' <= c <= 'Z' then (c as int + 32) as char
    else if c == '\U{0130}' then 'i'
    else if c == '\U{212A}' then 'k'
    else c
  }

  /** Go's `strings.ToLower`, character by character: no ASCII capital is
      left, the ASCII letters and the two non-ASCII capitals that lower to
      ASCII become lower-case letters, and everything else is kept. */
  function Lower(s: string): (r: string)
    ensures |r| == |s|
    ensures forall i :: 0 <= i < |r| ==> !('A' <= r[i] <= 'Z')
    ensures forall i :: 0 <= i < |s| ==>
              ('a' <= r[i] <= 'z' <==> ('a' <= s[i] <= 'z' || 'A' <= s[i] <= 'Z' || s[i] == '\U{0130}' || s[i] == '\U{212A}'))
    ensures forall i :: 0 <= i < |s| && 'A' <= s[i] <= 'Z' ==> r[i] as int == s[i] as int + 32
    ensures forall i :: 0 <= i < |s| && s[i] == '\U{0130}' ==> r[i] == 'i'
    ensures forall i :: 0 <= i < |s| && s[i] == '\U{212A}' ==> r[i] == 'k'
    ensures forall i :: 0 <= i < |s| && !('A' <= s[i] <= 'Z' || s[i] == '\U{0130}' || s[i] == '\U{212A}') ==> r[i] == s[i]
  {
    seq(|s|, i requires 0 <= i < |s| => LowerChar(s[i]))
  }

  /** Lowering twice is lowering once. */
  lemma LowerIdempotent(s: string)
    ensures Lower(Lower(s)) == Lower(s)
  {
  }

  /** `s` lower-cases, character by character, to `word`. */
  predicate FoldsTo(s: string, word: string) {
    |s| == |word| && FoldsFrom(s, word, 0)
  }

  /** Every character from position `i` on lower-cases to `word`'s. */
  predicate FoldsFrom(s: string, word: string, i: nat)
    requires |s| == |word|
    decreases |s| - i
  {
    i >= |s| || (LowerChar(s[i]) == word[i] && FoldsFrom(s, word, i + 1))
  }

  lemma {:induction false} FoldsFromAll(s: string, word: string, i: nat)
    requires |s| == |word|
    ensures FoldsFrom(s, word, i) <==> forall j :: i <= j < |s| ==> LowerChar(s[j]) == word[j]
    decreases |s| - i
  {
    if i < |s| {
      FoldsFromAll(s, word, i + 1);
    }
  }

  /** Folding to a word is lowering to exactly that word. */
  lemma FoldsToLower(s: string, word: string)
    ensures FoldsTo(s, word) <==> Lower(s) == word
  {
    if |s| == |word| {
      FoldsFromAll(s, word, 0);
    }
  }

  /** Go's `strings.HasPrefix`. */
  predicate HasPrefix(s: string, prefix: string) {
    |prefix| <= |s| && s[..|prefix|] == prefix
  }

  /** The position of the first occurrence of `c` in `s`, if any. */
  function IndexOf(s: string, c: char): (r: Option<nat>)
    ensures r.None? <==> c !in s
    ensures r.Some? ==> r.value < |s| && s[r.value] == c && c !in s[..r.value]
  {
    if |s| == 0 then None
    else if s[0] == c then Some(0)
    else match IndexOf(s[1..], c)
      case None => None
      case Some(i) =>
        assert s[1..][..i] == s[1..i + 1];
        Some(i + 1)
  }

  /** The first occurrence is the one `IndexOf` finds. */
  lemma IndexOfFirst(s: string, c: char, i: nat)
    requires i < |s| && s[i] == c && c !in s[..i]
    ensures IndexOf(s, c) == Some(i)
  {
  }

  /** Number of occurrences of `c` in `s`. */
  function Count(s: string, c: char): nat {
    if |s| == 0 then 0 else (if s[0] == c then 1 else 0) + Count(s[1..], c)
  }

  /** Go's `strings.Join` with a one-character separator. */
  function Join(parts: seq<string>, sep: char): string
    requires |parts| >= 1
  {
    if |parts| == 1 then parts[0] else parts[0] + [sep] + Join(parts[1..], sep)
  }

  /** Go's `strings.Split` with a one-character separator: the pieces of `s`
      between occurrences of `sep`. There is always at least one piece, one
      more than there are separators, and joining the pieces gives `s` back. */
  function Split(s: string, sep: char): (parts: seq<string>)
    ensures |parts| == Count(s, sep) + 1
    ensures forall i :: 0 <= i < |parts| ==> sep !in parts[i]
    ensures Join(parts, sep) == s
    decreases |s|
  {
    match IndexOf(s, sep)
    case None =>
      CountAbsent(s, sep);
      [s]
    case Some(i) =>
      var rest := Split(s[i + 1..], sep);
      CountSplit(s, sep, i);
      assert s == s[..i] + [sep] + s[i + 1..];
      [s[..i]] + rest
  }

  lemma {:induction false} CountAbsent(s: string, c: char)
    requires c !in s
    ensures Count(s, c) == 0
    decreases |s|
  {
    if |s| > 0 {
      CountAbsent(s[1..], c);
    }
  }

  lemma {:induction false} CountSplit(s: string, c: char, i: nat)
    requires i < |s| && s[i] == c && c !in s[..i]
    ensures Count(s, c) == 1 + Count(s[i + 1..], c)
    decreases i
  {
    if i > 0 {
      assert s[1..][..i - 1] == s[1..i];
      CountSplit(s[1..], c, i - 1);
      assert s[1..][i..] == s[i + 1..];
    }
  }

  /** Splitting pieces that contain no separator after joining them gives
      the pieces back: `Split` and `Join` are inverse on such sequences. */
  lemma {:induction false} SplitJoin(parts: seq<string>, sep: char)
    requires |parts| >= 1
    requires forall i :: 0 <= i < |parts| ==> sep !in parts[i]
    ensures Split(Join(parts, sep), sep) == parts
    decreases |parts|
  {
    if |parts| == 1 {
      assert IndexOf(parts[0], sep).None?;
    } else {
      var s := Join(parts, sep);
      var tail := Join(parts[1..], sep);
      assert s == parts[0] + [sep] + tail;
      assert s[..|parts[0]|] == parts[0];
      assert s[|parts[0]| + 1..] == tail;
      assert s[|parts[0]|] == sep;
      IndexOfFirst(s, sep, |parts[0]|);
      SplitJoin(parts[1..], sep);
      assert parts == [parts[0]] + parts[1..];
    }
  }
}

=== FILE: validators.dfy ===
/** The name-dispatched validator family: a type name, matched without
    regard to letter case, selects one of six validators. Names that are not
    recognised, "enum" among them, select the validator that accepts
    everything. */
module Validators {
  import opened Wrappers
  import opened Text
  import opened Strconv
  import opened ValueTypes
  import opened Platform
  import opened Scenarios

  datatype Validator =
    | AnyValidator
    | IntValidator
    | BoolValidator
    | IPValidator
    | PortValidator
    | PathValidator

  /** Why a validator rejects an input. */
  datatype CheckError =
    | BadInteger(input: string)
    | ExpectedBool
    | BadIP(input: string)
    | BadPort(input: string)
    | BadPath(input: string)

  /** The lower-case type names that select a specific validator. */
  const CheckedNames: set<string> := {"int", "bool", "ip", "port", "path"}

  /** `GetValidator`: the validator for a type name, after lower-casing it. */
  function GetValidator(valueType: string): (v: Validator)
    ensures v == IntValidator <==> Lower(valueType) == "int"
    ensures v == BoolValidator <==> Lower(valueType) == "bool"
    ensures v == IPValidator <==> Lower(valueType) == "ip"
    ensures v == PortValidator <==> Lower(valueType) == "port"
    ensures v == PathValidator <==> Lower(valueType) == "path"
    ensures v == AnyValidator <==> Lower(valueType) !in CheckedNames
  {
    match Lower(valueType)
    case "int" => IntValidator
    case "bool" => BoolValidator
    case "ip" => IPValidator
    case "port" => PortValidator
    case "path" => PathValidator
    case "string" | "any" => AnyValidator
    case _ => AnyValidator
  }

  /** `Validate` of each validator. */
  function Check(v: Validator, input: string, o: Oracles): (r: Outcome<CheckError>)
    ensures v == AnyValidator ==> r == Pass
    ensures v == IntValidator ==> r == (if AtoiAccepts(input) then Pass else Fail(BadInteger(input)))
    ensures v == BoolValidator ==>
              r == (if FoldsTo(input, "true") || FoldsTo(input, "false") then Pass else Fail(ExpectedBool))
    ensures v == IPValidator ==> r == (if o.parseIP(input) then Pass else Fail(BadIP(input)))
    ensures v == PortValidator ==> r == (if IsPort(input) then Pass else Fail(BadPort(input)))
    ensures v == PathValidator ==> r == (if o.absPath(input) then Pass else Fail(BadPath(input)))
  {
    match v
    case AnyValidator => Pass
    case IntValidator =>
      if Atoi(input).None? then Fail(BadInteger(input)) else Pass
    case BoolValidator =>
      var lower := Lower(input);
      FoldsToLower(input, "true");
      FoldsToLower(input, "false");
      if lower != "true" && lower != "false" then Fail(ExpectedBool) else Pass
    case IPValidator =>
      if !o.parseIP(input) then Fail(BadIP(input)) else Pass
    case PortValidator =>
      var p := Atoi(input);
      if p.None? || p.value < 1 || p.value > 65535 then Fail(BadPort(input)) else Pass
    case PathValidator =>
      if !o.absPath(input) then Fail(BadPath(input)) else Pass
  }

  /** Letter case of the type name never changes the validator chosen. */
  lemma GetValidatorIgnoresCase(valueType: string)
    ensures GetValidator(valueType) == GetValidator(Lower(valueType))
  {
    LowerIdempotent(valueType);
  }

  /** "PORT", "Int" and "BOOL" select the port, int and bool validators. */
  lemma GetValidatorExamples()
    ensures GetValidator("PORT") == PortValidator
    ensures GetValidator("Int") == IntValidator
    ensures GetValidator("BOOL") == BoolValidator
    ensures GetValidator("enum") == AnyValidator
    ensures GetValidator("ip-address") == AnyValidator
  {
    assert Lower("PORT") == "port";
    assert Lower("Int") == "int";
    assert Lower("BOOL") == "bool";
    assert Lower("enum") == "enum";
    assert Lower("ip-address")[2] == '-';
  }

  /** For each of the seven types both families know, the validator chosen
      by the type's name accepts exactly the answers `ValidateValue`
      accepts. */
  lemma AgreesWithValidateValue(t: ValueType, input: string, enumValues: seq<string>, o: Oracles)
    requires t != TypeEnum && !t.Other?
    ensures Check(GetValidator(Name(t)), input, o).Pass? == ValidateValue(t, input, enumValues, o).Pass?
  {
    var n := Name(t);
    assert Lower(n) == n;
  }

  /** Where the families differ: every name that is not one of the checked
      types, "enum" and any unknown spelling included, yields a validator
      that accepts every answer, while `ValidateValue` rejects unknown types
      outright and checks enum membership. */
  lemma UncheckedNamesAcceptEverything(valueType: string, input: string, o: Oracles)
    requires Lower(valueType) !in CheckedNames
    ensures Check(GetValidator(valueType), input, o) == Pass
  {
  }

  /** The divergence on two concrete names: "enum", where an answer outside
      a non-empty allowed list is accepted by one family and rejected by the
      other, and "ip-address". */
  lemma FamiliesDiverge(o: Oracles)
    ensures Check(GetValidator("enum"), "x", o) == Pass
    ensures ValidateValue(TypeEnum, "x", ["y"], o) == Fail(NotInEnum(["y"]))
    ensures Check(GetValidator("ip-address"), "x", o) == Pass
    ensures ValidateValue(FromName("ip-address"), "x", [], o) == Fail(UnknownType("ip-address"))
  {
    GetValidatorExamples();
  }
}

=== FILE: valuetypes.dfy ===
/** The declared type of a scenario step.

    In the program a value type is an open string type with eight named
    constants, so any string is a value type and only the eight are known.
    Here the eight constants are constructors and every other string is
    `Other(name)`; the subset type `ValueType` forbids `Other` from carrying
    one of the eight names, so that value types and strings correspond one
    to one (`Name` and `FromName` below). Names are compared exactly:
    "INT" is not the int type. */
module ValueTypes {

  datatype Tag =
    | TypeString
    | TypeInt
    | TypeBool
    | TypeIP
    | TypePort
    | TypeAny
    | TypeEnum
    | TypePath
    | Other(name: string)

  /** The names of the eight known constants. */
  const KnownNames: set<string> := {"string", "int", "bool", "ip", "port", "any", "enum", "path"}

  type ValueType = t: Tag | t.Other? ==> t.name !in KnownNames witness TypeString

  /** The string a value type is. */
  function Name(t: Tag): string {
    match t
    case TypeString => "string"
    case TypeInt => "int"
    case TypeBool => "bool"
    case TypeIP => "ip"
    case TypePort => "port"
    case TypeAny => "any"
    case TypeEnum => "enum"
    case TypePath => "path"
    case Other(n) => n
  }

  /** The value type a string is: a known constant when the string is
      exactly its name, `Other` otherwise. */
  function FromName(s: string): (t: ValueType)
    ensures Name(t) == s
    ensures t.Other? <==> s !in KnownNames
  {
    match s
    case "string" => TypeString
    case "int" => TypeInt
    case "bool" => TypeBool
    case "ip" => TypeIP
    case "port" => TypePort
    case "any" => TypeAny
    case "enum" => TypeEnum
    case "path" => TypePath
    case _ => Other(s)
  }

  /** Reading back the name of a value type gives the same value type, so
      `Name` is injective on `ValueType`. */
  lemma FromNameOfName(t: ValueType)
    ensures FromName(Name(t)) == t
  {
  }

  /** The eight constants have pairwise distinct names, all in `KnownNames`. */
  lemma ConstantNamesDistinct(a: Tag, b: Tag)
    requires !a.Other? && !b.Other? && a != b
    ensures Name(a) != Name(b)
    ensures Name(a) in KnownNames
  {
  }

  /** The IP type is spelled "ip"; "ip-address" and upper-case spellings
      are not known types. */
  lemma TagSpellings()
    ensures Name(TypeIP) == "ip"
    ensures FromName("ip-address") == Other("ip-address")
    ensures FromName("INT") == Other("INT")
    ensures FromName("Port").Other?
  {
  }
}

=== FILE: wrappers.dfy ===
/** Result types shared by the validation and writer modules.

    Go reports failure through an `error` return that is either nil or an
    error value; `Outcome` plays that role. `Result` carries a value on
    success and supports Dafny's `:-` propagation. */
module Wrappers {

  datatype Option<+T> = None | Some(value: T)

  datatype Result<+T, +E> = Success(value: T) | Failure(error: E) {

    predicate IsFailure() {
      Failure?
    }

    function PropagateFailure<U>(): Result<U, E>
      requires Failure?
    {
      Failure(error)
    }

    function Extract(): T
      requires Success?
    {
      value
    }
  }

  /** A Go `error` result: `Pass` is nil, `Fail` carries the error. */
  datatype Outcome<+E> = Pass | Fail(error: E)
}

=== FILE: writer.dfy ===
/** The format-aware key writer over an abstract file system.

    The file system maps paths to contents; a path that is not in the map
    is a file that cannot be opened. Writing never creates a file: every
    backend first opens the file for reading and fails when it cannot.
    The backend is chosen from the lower-cased extension of the path:
    ".ini" and ".json" have their own backends, everything else goes to the
    plain-text backend. The JSON text format itself is a parameter (`Codec`):
    `decode` turns content into a JSON value or fails, `encode` turns a
    value into content. */
module Writer {
  import opened Wrappers
  import opened Text
  import opened LineIO
  import opened LinePatch
  import opened JsonTree
  import opened Paths

  datatype FileSystem = FileSystem(files: map<string, string>)

  datatype Codec = Codec(decode: string -> Option<Json>, encode: Json -> string)

  /** Why a write fails. The first two are errors the program returns; the
      last two are run-time panics in the program (an assignment into the
      nil map that decoding `null` leaves, and a failed type assertion on an
      intermediate member), here failures like the others. */
  datatype WriteError =
    | OpenFailed(path: string)
    | DecodeFailed
    | NilMapAssignment
    | IntermediateNotObject(segment: string)

  datatype Backend = PlainBackend | IniBackend | JsonBackend

  /** The backend for a path, from its extension without regard to case. */
  function BackendFor(path: string): (b: Backend)
    ensures b == IniBackend <==> FoldsTo(Ext(path), ".ini")
    ensures b == JsonBackend <==> FoldsTo(Ext(path), ".json")
  {
    var ext := Lower(Ext(path));
    FoldsToLower(Ext(path), ".ini");
    FoldsToLower(Ext(path), ".json");
    match ext
    case ".ini" => IniBackend
    case ".json" => JsonBackend
    case _ => PlainBackend
  }

  /** The only change is at `path`, and no file appears or disappears. */
  predicate OnlyChanges(before: FileSystem, after: FileSystem, path: string) {
    && after.files.Keys == before.files.Keys
    && forall p :: p in before.files && p != path ==> after.files[p] == before.files[p]
  }

  /** The content the text backends write for `content`: read all lines,
      patch them, write them all back. */
  function PatchedContent(content: string, key: string, value: string): string {
    Unlines(PatchLines(ScanLines(content), key, value))
  }

  function RewriteLines(fs: FileSystem, path: string, key: string, value: string): Result<FileSystem, WriteError> {
    if path !in fs.files then Failure(OpenFailed(path))
    else Success(FileSystem(fs.files[path := PatchedContent(fs.files[path], key, value)]))
  }

  /** `WritePlain`: the file must exist; its lines are patched and the whole
      file is rewritten, each line ending in a line feed. */
  function WritePlain(fs: FileSystem, path: string, key: string, value: string): (r: Result<FileSystem, WriteError>)
    ensures r.Success? <==> path in fs.files
    ensures r.Failure? ==> r.error == OpenFailed(path)
    ensures r.Success? ==> OnlyChanges(fs, r.value, path)
    ensures r.Success? ==> r.value.files[path] == PatchedContent(fs.files[path], key, value)
  {
    RewriteLines(fs, path, key, value)
  }

  /** `WriteINI`: the same line patch as `WritePlain`, with no notion of
      sections. */
  function WriteIni(fs: FileSystem, path: string, key: string, value: string): (r: Result<FileSystem, WriteError>)
    ensures r.Success? <==> path in fs.files
    ensures r.Failure? ==> r.error == OpenFailed(path)
    ensures r.Success? ==> OnlyChanges(fs, r.value, path)
    ensures r.Success? ==> r.value.files[path] == PatchedContent(fs.files[path], key, value)
  {
    RewriteLines(fs, path, key, value)
  }

  /** What decoding into a Go map gives: an object's members, `None` for
      the nil map `null` leaves, or a failure for anything else. */
  function DecodeObject(codec: Codec, content: string): (r: Result<Option<map<string, Json>>, WriteError>)
    ensures r.Success? <==> codec.decode(content).Some? && (codec.decode(content).value.JObject? || codec.decode(content).value.JNull?)
    ensures r.Success? && r.value.Some? ==> codec.decode(content) == Some(JObject(r.value.value))
    ensures r.Failure? ==> r.error == DecodeFailed
  {
    match codec.decode(content)
    case None => Failure(DecodeFailed)
    case Some(JObject(m)) => Success(Some(m))
    case Some(JNull) => Success(None)
    case Some(_) => Failure(DecodeFailed)
  }

  /** `WriteJSON`: the file must exist and decode to an object; the dotted
      key is set in it and the whole document is encoded back. */
  function WriteJson(fs: FileSystem, codec: Codec, path: string, key: string, value: string): (r: Result<FileSystem, WriteError>)
    ensures path !in fs.files ==> r == Failure(OpenFailed(path))
    ensures path in fs.files && codec.decode(fs.files[path]) == Some(JNull) ==> r == Failure(NilMapAssignment)
    ensures path in fs.files && codec.decode(fs.files[path]).Some? && codec.decode(fs.files[path]).value.JObject? ==>
              (r.Success? <==> PathClear(codec.decode(fs.files[path]).value.members, Split(key, '.')))
    ensures path in fs.files && (codec.decode(fs.files[path]).None? ||
              !(codec.decode(fs.files[path]).value.JObject? || codec.decode(fs.files[path]).value.JNull?))
            ==> r == Failure(DecodeFailed)
    ensures path in fs.files && codec.decode(fs.files[path]).Some? && codec.decode(fs.files[path]).value.JObject? &&
              !PathClear(codec.decode(fs.files[path]).value.members, Split(key, '.'))
            ==> r.Failure? && r.error.IntermediateNotObject? && r.error.segment in Split(key, '.')
    ensures r.Success? ==> OnlyChanges(fs, r.value, path)
    ensures r.Success? ==>
              && path in fs.files
              && codec.decode(fs.files[path]).Some?
              && codec.decode(fs.files[path]).value.JObject?
              && var m := codec.decode(fs.files[path]).value.members;
                 var parts := Split(key, '.');
                 && SetPath(m, parts, value).Success?
                 && r.value.files[path] == codec.encode(JObject(SetPath(m, parts, value).value))
  {
    if path !in fs.files then Failure(OpenFailed(path))
    else
      var decoded :- DecodeObject(codec, fs.files[path]);
      match decoded
      case None => Failure(NilMapAssignment)
      case Some(m) =>
        var parts := Split(key, '.');
        SetPathSucceedsIff(m, parts, value);
        match SetPath(m, parts, value)
        case Failure(NotAnObject(segment)) => Failure(IntermediateNotObject(segment))
        case Success(updated) => Success(FileSystem(fs.files[path := codec.encode(JObject(updated))]))
  }

  /** `SaveValue`: writes through the backend the path's extension selects.
      It never creates a file and touches no file but `path`. */
  function SaveValue(fs: FileSystem, codec: Codec, path: string, key: string, value: string): (r: Result<FileSystem, WriteError>)
    ensures path !in fs.files ==> r == Failure(OpenFailed(path))
    ensures r.Success? ==> OnlyChanges(fs, r.value, path)
    ensures BackendFor(path) != JsonBackend && path in fs.files ==>
              r == Success(FileSystem(fs.files[path := PatchedContent(fs.files[path], key, value)]))
  {
    match BackendFor(path)
    case IniBackend => WriteIni(fs, path, key, value)
    case JsonBackend => WriteJson(fs, codec, path, key, value)
    case PlainBackend => WritePlain(fs, path, key, value)
  }

  /** Paths with a ".json" extension, in any letter case, are written by
      `WriteJson`. */
  lemma SaveValueJson(fs: FileSystem, codec: Codec, path: string, key: string, value: string)
    requires BackendFor(path) == JsonBackend
    ensures SaveValue(fs, codec, path, key, value) == WriteJson(fs, codec, path, key, value)
  {
  }

  /** A suffix that lower-cases to an extension is itself the extension:
      lowering never produces `.` or `/` from anything else. */
  lemma FoldedExtension(p: string, e: string, word: string)
    requires FoldsTo(e, word)
    requires |word| >= 1 && word[0] == '.' && '.' !in word[1..] && '/' !in word
    ensures Ext(p + e) == e
  {
    FoldsToLower(e, word);
    assert e[0] == '.' by { assert LowerChar(e[0]) == word[0]; }
    assert '.' !in e[1..] && '/' !in e by {
      forall i | 0 <= i < |e|
        ensures e[i] == LowerChar(e[i]) || 'a' <= LowerChar(e[i]) <= 'z'
        ensures LowerChar(e[i]) == word[i]
      {
      }
      forall i | 1 <= i < |e|
        ensures e[i] != '.'
      {
        assert word[1..][i - 1] == word[i];
      }
    }
    ExtIs(p + e, e);
  }

  /** Any spelling of ".ini" or ".json", in any letter case, selects its
      backend. */
  lemma DispatchIgnoresCase(p: string, e: string)
    ensures FoldsTo(e, ".ini") ==> BackendFor(p + e) == IniBackend
    ensures FoldsTo(e, ".json") ==> BackendFor(p + e) == JsonBackend
  {
    if FoldsTo(e, ".ini") {
      FoldedExtension(p, e, ".ini");
    }
    if FoldsTo(e, ".json") {
      FoldedExtension(p, e, ".json");
    }
  }

  /** Only the last extension of the final path element counts: whatever
      precedes it, directories and earlier extensions included, does not
      change the backend. */
  lemma DispatchUsesFinalElement(p: string, e: string)
    requires |e| >= 1 && e[0] == '.' && '.' !in e[1..] && '/' !in e
    ensures BackendFor(p + e) == BackendFor(e)
  {
    ExtIs(p + e, e);
    ExtIs(e, e);
  }

  /** A final path element without a dot has no extension and goes to the
      plain-text backend, whatever dots the directories carry. */
  lemma DispatchDefaultsToPlain(p: string, name: string)
    requires '.' !in name
    ensures BackendFor(p + "/" + name) == PlainBackend
  {
    var q := p + "/" + name;
    assert q[|p|] == '/' && q[|p| + 1..] == name;
    ExtNone(q, |p|);
  }

  /** A line scanned from a file is stable unless it ended in two carriage
      returns; `StableContent` asks that none did. */
  predicate StableContent(content: string) {
    forall i :: 0 <= i < |ScanLines(content)| ==> Stable(ScanLines(content)[i])
  }

  /** Content made of stable lines is read back as those lines, so its
      patch is the patch of those lines. */
  lemma PatchedContentOfLines(lines: seq<string>, key: string, value: string)
    requires forall i :: 0 <= i < |lines| ==> Stable(lines[i])
    ensures PatchedContent(Unlines(lines), key, value) == Unlines(PatchLines(lines, key, value))
  {
    ScanUnlines(lines);
  }

  /** A file whose last line has no line feed is read with that line, one
      carriage return dropped, and written back with a line feed after it. */
  lemma PatchedContentUnterminated(lines: seq<string>, last: string, key: string, value: string)
    requires forall i :: 0 <= i < |lines| ==> Stable(lines[i])
    requires |last| > 0 && '\n' !in last
    ensures PatchedContent(Unlines(lines) + last, key, value)
            == Unlines(PatchLines(lines + [DropCR(last)], key, value))
  {
    ScanUnterminated(lines, last);
  }

  /** Writing a key that is present replaces its line in place: "a=1", "b=2"
      with b set to 9 gives "a=1", "b=9". */
  lemma WriteReplacesInPlace(a: string, x: string, b: string, y: string, z: string)
    requires a != b && '=' !in a && '=' !in b
    requires Stable(Entry(a, x)) && Stable(Entry(b, y))
    ensures PatchedContent(Unlines([Entry(a, x), Entry(b, y)]), b, z) == Unlines([Entry(a, x), Entry(b, z)])
  {
    var lines := [Entry(a, x), Entry(b, y)];
    PatchedContentOfLines(lines, b, z);
    DistinctKeysDoNotMatch(a, b, x);
    EntryMatches(b, y);
    assert Matches(lines[1], b);
  }

  /** Writing a key that is absent appends its line after all others:
      "a=1", "b=2" with c set to 3 gives "a=1", "b=2", "c=3". */
  lemma WriteAppendsMissing(a: string, x: string, b: string, y: string, c: string, z: string)
    requires a != c && b != c && '=' !in a && '=' !in b && '=' !in c
    requires Stable(Entry(a, x)) && Stable(Entry(b, y))
    ensures PatchedContent(Unlines([Entry(a, x), Entry(b, y)]), c, z)
            == Unlines([Entry(a, x), Entry(b, y), Entry(c, z)])
  {
    var lines := [Entry(a, x), Entry(b, y)];
    assert forall i :: 0 <= i < |lines| ==> Stable(lines[i]);
    PatchedContentOfLines(lines, c, z);
    PatchTwoAppends(a, x, b, y, c, z);
  }

  lemma PatchTwoAppends(a: string, x: string, b: string, y: string, c: string, z: string)
    requires a != c && b != c && '=' !in a && '=' !in b && '=' !in c
    ensures PatchLines([Entry(a, x), Entry(b, y)], c, z) == [Entry(a, x), Entry(b, y), Entry(c, z)]
  {
    var lines := [Entry(a, x), Entry(b, y)];
    DistinctKeysDoNotMatch(a, c, x);
    DistinctKeysDoNotMatch(b, c, y);
    assert !AnyMatch(lines, c);
    PatchAppendsWhenAbsent(lines, c, z);
    assert lines + [Entry(c, z)] == [Entry(a, x), Entry(b, y), Entry(c, z)];
  }

  /** The entry read back with a carriage return dropped still assigns its
      key: only a character of the value can be dropped. */
  lemma EntryReadBackMatches(key: string, value: string)
    ensures Matches(DropCR(Entry(key, value)), key)
  {
    var e, p := Entry(key, value), key + "=";
    assert e[..|p|] == p;
    if |value| > 0 {
      assert DropCR(e)[..|p|] == p;
    } else {
      assert DropCR(e) == e;
    }
  }

  /** One patched line read back: an entry still assigns the key, and any
      other line reads back as itself and does not assign it. */
  lemma ReadBackLine(lines: seq<string>, key: string, value: string, i: nat)
    requires forall j :: 0 <= j < |lines| ==> Stable(lines[j])
    requires i < |PatchLines(lines, key, value)|
    ensures var p := PatchLines(lines, key, value);
            var d := DropEach(p);
            && |d| == |p|
            && if p[i] == Entry(key, value) then Matches(d[i], key)
               else d[i] == p[i] && !Matches(d[i], key)
  {
    var p := PatchLines(lines, key, value);
    DropEachIndex(p, i);
    EntryReadBackMatches(key, value);
    if i < |lines| && !Matches(lines[i], key) {
      DropCRStable(lines[i]);
    }
  }

  /** The read-back form of patched stable lines still assigns the key. */
  lemma ReadBackAssigns(lines: seq<string>, key: string, value: string)
    requires forall i :: 0 <= i < |lines| ==> Stable(lines[i])
    ensures AnyMatch(DropEach(PatchLines(lines, key, value)), key)
  {
    var p := PatchLines(lines, key, value);
    PatchAssigns(lines, key, value);
    var j :| 0 <= j < |p| && Matches(p[j], key);
    assert p[j] in p;
    ReadBackLine(lines, key, value, j);
  }

  lemma RepatchPointwise(lines: seq<string>, key: string, value: string)
    requires forall i :: 0 <= i < |lines| ==> Stable(lines[i])
    requires AnyMatch(DropEach(PatchLines(lines, key, value)), key)
    ensures var p := PatchLines(lines, key, value);
            var q := PatchLines(DropEach(p), key, value);
            && |q| == |p|
            && forall i :: 0 <= i < |p| ==> q[i] == p[i]
  {
    var p := PatchLines(lines, key, value);
    var q := PatchLines(DropEach(p), key, value);
    DropEachLength(p);
    forall i | 0 <= i < |p|
      ensures q[i] == p[i]
    {
      ReadBackLine(lines, key, value, i);
    }
  }

  /** Patching the read-back form of patched stable lines gives the same
      patched lines: every entry, with or without its last carriage
      return, is replaced by the entry again, and every other line is kept. */
  lemma RepatchReadBack(lines: seq<string>, key: string, value: string)
    requires forall i :: 0 <= i < |lines| ==> Stable(lines[i])
    ensures PatchLines(DropEach(PatchLines(lines, key, value)), key, value) == PatchLines(lines, key, value)
  {
    ReadBackAssigns(lines, key, value);
    RepatchPointwise(lines, key, value);
  }

  /** Patching stable content twice gives what patching it once gives, for
      any entry without a line feed: an entry whose value ends in a carriage
      return is read back without it and still replaced. */
  lemma PatchedContentIdempotent(content: string, key: string, value: string)
    requires StableContent(content) && '\n' !in Entry(key, value)
    ensures PatchedContent(PatchedContent(content, key, value), key, value) == PatchedContent(content, key, value)
  {
    var lines := ScanLines(content);
    var patched := PatchLines(lines, key, value);
    forall i | 0 <= i < |patched|
      ensures '\n' !in patched[i]
    {
      if i >= |lines| || Matches(lines[i], key) {
        assert patched[i] == Entry(key, value);
      } else {
        assert patched[i] == lines[i];
      }
    }
    ScanUnlinesDrop(patched);
    RepatchReadBack(lines, key, value);
  }

  /** Writing the same content at the same path twice is writing it once. */
  lemma UpdateTwice(m: map<string, string>, k: string, c: string)
    ensures m[k := c][k := c] == m[k := c]
  {
  }

  /** For the text backends, saving the same key and value twice leaves the
      file as saving it once does, provided the file's lines read back as
      themselves and the new `key=value` line holds no line feed. */
  lemma SaveTextIdempotent(fs: FileSystem, codec: Codec, path: string, key: string, value: string)
    requires BackendFor(path) != JsonBackend
    requires path in fs.files ==> StableContent(fs.files[path])
    requires '\n' !in Entry(key, value)
    ensures SaveValue(fs, codec, path, key, value).Success? ==>
              SaveValue(SaveValue(fs, codec, path, key, value).value, codec, path, key, value)
              == SaveValue(fs, codec, path, key, value)
  {
    if path in fs.files {
      var c := PatchedContent(fs.files[path], key, value);
      PatchedContentIdempotent(fs.files[path], key, value);
      var once := FileSystem(fs.files[path := c]);
      assert SaveValue(fs, codec, path, key, value) == Success(once);
      assert once.files[path] == c;
      UpdateTwice(fs.files, path, c);
    }
  }

  /** The first patch of a line that ends in two carriage returns and does
      not assign the key reads it with one of them and appends the entry
      after it. */
  lemma FirstPatchKeepsOneReturn(x: string, key: string, value: string)
    requires Stable(x) && !Matches(x + "\r", key)
    ensures PatchedContent(x + "\r\r\n", key, value) == Unlines([x + "\r", Entry(key, value)])
  {
    ReadDropsOneCarriageReturn(x);
    assert !AnyMatch([x + "\r"], key);
    PatchAppendsWhenAbsent([x + "\r"], key, value);
  }

  /** The second patch reads that line without its last carriage return
      and finds the entry already in place. */
  lemma SecondPatchDropsIt(x: string, key: string, value: string)
    requires Stable(x) && Stable(Entry(key, value)) && !Matches(x + "\r", key)
    ensures PatchedContent(Unlines([x + "\r", Entry(key, value)]), key, value) == Unlines([x, Entry(key, value)])
  {
    var e := Entry(key, value);
    ReadDropsTheOther(x, e);
    MatchesExtends(x, "\r", key);
    EntryMatches(key, value);
    assert [x, e][1] == e;
    PatchFixedPoint([x, e], key, value);
  }

  /** Content whose first line still ends in a carriage return differs
      from the content without it, so the results of the first patch
      (`FirstPatchKeepsOneReturn`) and of the second (`SecondPatchDropsIt`)
      are different files. */
  lemma ReturnKeptDiffers(x: string, e: string)
    ensures Unlines([x + "\r", e]) != Unlines([x, e])
  {
    assert Unlines([x + "\r", e])[|x|] != Unlines([x, e])[|x|] by {
      UnlinesTwo(x + "\r", e);
      UnlinesTwo(x, e);
    }
  }

  /** Without the stability condition the text backends are not idempotent:
      when a line ends in two carriage returns and does not assign the key,
      the second save of the same key and value changes the file again. */
  lemma CarriageReturnsBreakIdempotence(fs: FileSystem, codec: Codec, path: string, key: string, value: string, x: string)
    requires BackendFor(path) != JsonBackend
    requires path in fs.files && fs.files[path] == x + "\r\r\n"
    requires Stable(x) && Stable(Entry(key, value)) && !Matches(x + "\r", key)
    ensures var once := SaveValue(fs, codec, path, key, value);
            && once.Success?
            && once.value.files[path] == Unlines([x + "\r", Entry(key, value)])
            && var twice := SaveValue(once.value, codec, path, key, value);
               && twice.Success?
               && twice.value.files[path] == Unlines([x, Entry(key, value)])
               && twice != once
  {
    FirstPatchKeepsOneReturn(x, key, value);
    SecondPatchDropsIt(x, key, value);
    ReturnKeptDiffers(x, Entry(key, value));
  }

  /** The codec reads back whatever it writes. */
  ghost predicate RoundTrips(codec: Codec) {
    forall j :: codec.decode(codec.encode(j)) == Some(j)
  }

  /** For the JSON backend, saving the same key and value twice leaves the
      file as saving it once does, given a codec that reads back what it
      writes. */
  lemma SaveJsonIdempotent(fs: FileSystem, codec: Codec, path: string, key: string, value: string)
    requires BackendFor(path) == JsonBackend
    requires RoundTrips(codec)
    ensures SaveValue(fs, codec, path, key, value).Success? ==>
              SaveValue(SaveValue(fs, codec, path, key, value).value, codec, path, key, value)
              == SaveValue(fs, codec, path, key, value)
  {
    SaveValueJson(fs, codec, path, key, value);
    var r := WriteJson(fs, codec, path, key, value);
    if r.Success? {
      SaveValueJson(r.value, codec, path, key, value);
      var m := codec.decode(fs.files[path]).value.members;
      var parts := Split(key, '.');
      var updated := SetPath(m, parts, value).value;
      SetPathIdempotent(m, parts, value);
      assert codec.decode(codec.encode(JObject(updated))) == Some(JObject(updated));
      UpdateTwice(fs.files, path, codec.encode(JObject(updated)));
    }
  }
}
